=== FILE: README.md ===
# Encrypted chat client: envelope, pagination and chat-list model

A Dafny model of the three pieces of pure logic in the encrypted-chat web
client:

- **The message envelope** (`src/tools/encryption.js`).
  - `encryptAESGCM` writes a fresh 12-byte IV, then the AES-GCM output, and
    sends the buffer as base64.
  - `decryptAESGCM` decodes the base64, splits off the IV and decrypts the
    rest.
  - `decryptEncryptedPrivateKey` guards the PKCS#8 unlock of the user's RSA
    key and copies the DER string into a byte buffer.
  - The base64 codec is concrete (module `Base64`). Encoding follows section 4
    of RFC 4648. Decoding is the forgiving-base64 decode of the WHATWG Infra
    standard, which is what `atob` performs.
  - AES-GCM, RSA-OAEP, node-forge and UTF-8 are function-valued parameters.
    Their laws are stated once, as predicates (`AeadLaws`, `TextLaws`), and
    required by the lemmas that need them.
- **The message list of one chat** (`src/components/ChatRoom.jsx`).
  - The state is `{messages, oldestDoc, hasMore}` with `PAGE_SIZE = 20`.
  - The transitions are the live snapshot, `fetchOlder` behind
    `handleScroll`, `deleteMessage` and `handleSend`.
  - The read receipts add the user to `readBy` only when absent.
  - Every Firestore query result is an input sequence, and every handler is
    one atomic transition.
- **The chat overview** (`src/components/ChatList.jsx`):
  - the two-party chat id;
  - the partner, the unread counter and the last timestamp of a chat;
  - the upsert-then-sort of the recent-chats list and its deletion;
  - the case-insensitive user search, which never shows the current user.

## Modules

| file | module | contents |
|---|---|---|
| wrappers.dfy | `Wrappers` | `Option`, `Result` |
| seqs.dfy | `Seqs` | `filter`, a descending sort by key, and their facts |
| js_strings.dfy | `JsStrings` | `trim`, `toLowerCase`, `includes`, the `<` order on strings |
| base64.dfy | `Base64` | `btoa`/`atob` on byte strings |
| encryption.dfy | `Encryption` | the `encryption.js` functions |
| messages.dfy | `Messages` | the message document and its read receipts |
| chat_room.dfy | `ChatRoom` | the `ChatRoom.jsx` state machine |
| chat_list.dfy | `ChatList` | the `ChatList.jsx` helpers |

## Model

| member | source | states |
|---|---|---|
| Base64.RoundTrip | src/tools/encryption.js:107 | `atob` of `btoa` of any binary string gives back the same bytes: padding is stripped again, and every byte is rebuilt from the two sextets that carry it |
| Base64.UnpaddedRoundTrip | src/tools/encryption.js:107 | decoding the unpadded characters of any byte sequence returns that sequence |
| Base64.ByteAtEncoding | src/tools/encryption.js:107 | byte `j` of the input is rebuilt exactly from the two encoded characters that carry its bits |
| Base64.JoinCut | src/tools/encryption.js:107 | the two sextets that cover byte `k` of a 24-bit group give that byte back |
| Base64.EncodedLength | src/tools/encryption.js:107 | `btoa` output has `4 * ceil(n / 3)` characters, a multiple of four |
| Base64.StripEncodePadding | src/tools/encryption.js:59 | forgiving decoding removes exactly the `=` padding that encoding added |
| Base64.DecodedLengthOfEncoding | src/tools/encryption.js:59 | the characters for `n` bytes carry exactly `n` whole bytes |
| Base64.Encode | src/tools/encryption.js:107 | every output character is in table 1 of RFC 4648 or is `=` |
| Base64.Decode | src/tools/encryption.js:59 | a successful decode is never longer than its input |
| Base64.DecodeRejectsForeign | src/tools/encryption.js:59 | `atob` throws on any character that is not in the alphabet, not ASCII whitespace and not `=` |
| Base64.DecodeIgnoresWhitespace | src/tools/encryption.js:59 | removing the whitespace first does not change the decoded result |
| Base64.StripKeepsPrefix | src/tools/encryption.js:59 | padding removal keeps a prefix and drops only `=` characters |
| Base64.DecodeClean | src/tools/encryption.js:59 | text without whitespace, with a valid length and only alphabet characters, decodes group by group |
| Encryption.Frame | src/tools/encryption.js:100-105 | the buffer is the IV followed by the cipher output, with length the sum of theirs |
| Encryption.Split | src/tools/encryption.js:60-61 | the two slices concatenate back to the input; the IV has 12 bytes when the input does; a shorter input becomes all IV and an empty ciphertext, with no rejection |
| Encryption.SplitFrame | src/tools/encryption.js:60-61 | splitting a framed buffer with a 12-byte IV gives back the IV and the cipher output |
| Encryption.EncryptAesGcm | src/tools/encryption.js:86-107 | the envelope decodes to the IV followed by the sealed UTF-8 bytes, its length is four characters per started group of three bytes, and every character is in the base64 alphabet or is `=` |
| Encryption.DecryptAesGcm | src/tools/encryption.js:58-73 | text that is not base64 is rejected; otherwise the result is an operation error exactly when AES-GCM refuses the split buffer, and else the UTF-8 decoding of what it opened |
| Encryption.EnvelopeRoundTrip | src/tools/encryption.js:58-107 | under the AES-GCM and UTF-8 laws, decrypting the envelope of a message `m` that does not start with a byte order mark, under key `k`, gives `m`, whatever IV was drawn |
| Encryption.TrimmedMessageRoundTrip | src/components/ChatRoom.jsx:95 | a draft trimmed as `handleSend` trims it never starts with U+FEFF, so under the same laws its envelope would decrypt back to the trimmed text; `handleSend` itself stores the text unencrypted, and no modelled file calls `encryptAESGCM` |
| Encryption.EnvelopeLength | src/tools/encryption.js:86-105 | the decoded envelope is 12 + the plaintext byte length + the 16-byte tag |
| Encryption.ShortEnvelopeRejected | src/tools/encryption.js:59-70 | a decoded buffer shorter than IV plus tag is rejected by the cipher, not by the framing |
| Encryption.ImportAesKey | src/tools/encryption.js:76-84 | raw key material is accepted exactly when it has 16, 24 or 32 bytes, and is kept unchanged |
| Encryption.DecryptRsa | src/tools/encryption.js:45-55 | text that is not base64 is rejected as such; bytes RSA-OAEP refuses give an operation error; it succeeds exactly when both steps pass, and returns what RSA-OAEP returns |
| Encryption.RsaTransport | src/tools/encryption.js:45-53 | the base64 transport is transparent: decrypting the encoding of a wrapped key is decrypting the wrapped key, and a key RSA-OAEP refuses gives an operation error |
| Encryption.CharCodes | src/tools/encryption.js:22-25 | the buffer has the string's length and holds at each position the low byte of that character's code (the code itself for a binary string) |
| Encryption.CopyDer | src/tools/encryption.js:22-25 | the copy loop fills every position `i` with the low byte of the code of character `i` (the code itself for a binary string), and no more positions |
| Encryption.CopyIsLossless | src/tools/encryption.js:20-25 | for a binary string each byte equals its character's code, and the character is recovered from the byte |
| Encryption.DecryptEncryptedPrivateKey | src/tools/encryption.js:4-42 | it rejects before parsing when the PEM or password is missing or empty; a throw is an unexpected error; a null decryption is rejected and nothing is imported; past the guards, the result is the key that importing the DER byte copy returns, or an import error when the import returns none |
| Messages.HasRead | src/components/ChatRoom.jsx:50 | `readBy?.includes(uid)`: true exactly when some entry of the readers list is the user, and false when the list is absent |
| Messages.MarkRead | src/components/ChatRoom.jsx:50-53 | for a message the user has not read, `readBy` becomes the old readers followed by the user exactly once, and nothing else changes |
| Messages.Receipts | src/components/ChatRoom.jsx:48-55 | one update per document the user has not read, each of which lists the user |
| Messages.ReceiptsExact | src/components/ChatRoom.jsx:74-81 | every update belongs to an unread document and keeps its previous readers; every unread document gets its update |
| Messages.ApplyReceipts | src/components/ChatRoom.jsx:48-55 | after the updates every document is read by the user; a document already read is untouched, and an unread one becomes its `MarkRead` update, keeping text, timestamp and earlier readers |
| ChatRoom.Initial | src/components/ChatRoom.jsx:22-25 | no messages, no cursor, older history may remain |
| ChatRoom.OnSnapshot | src/components/ChatRoom.jsx:39-42 | the snapshot replaces the list; the cursor moves to its first document only when there is one; `hasMore` is untouched |
| ChatRoom.FetchOlderGuard | src/components/ChatRoom.jsx:61 | the early return without a cursor or once `hasMore` is false decides everything: some page changes the room exactly when a cursor exists and `hasMore` is true |
| ChatRoom.FetchOlder | src/components/ChatRoom.jsx:60-85 | no change without a cursor or once exhausted; an empty page only ends the history; otherwise page ++ old list, cursor on the page's first document, `hasMore` kept exactly when the page is full; the old list is always a suffix, and `hasMore` never turns true |
| ChatRoom.HandleScroll | src/components/ChatRoom.jsx:87-92 | the state changes only when the container is mounted, `scrollTop < 80`, history may remain and a cursor exists; below 80 it is exactly `fetchOlder` |
| ChatRoom.ExhaustedScrollIsNoOp | src/components/ChatRoom.jsx:87-92 | once exhausted, no scroll changes anything |
| ChatRoom.DeleteMessage | src/components/ChatRoom.jsx:109-114 | when not confirmed nothing changes; when confirmed the list keeps exactly the messages with other ids; the cursor and `hasMore` are untouched |
| ChatRoom.DeleteRemovesExactly | src/components/ChatRoom.jsx:112 | every copy of a message with that id goes, every other message keeps its multiplicity, and the survivors keep their order |
| ChatRoom.HandleSend | src/components/ChatRoom.jsx:94-104 | a blank draft sends nothing and stays; otherwise the trimmed, non-empty text is sent by the user, read by the user only, and the draft is cleared |
| ChatRoom.ExhaustionIsPermanent | src/components/ChatRoom.jsx:84 | once `hasMore` is false it stays false after any sequence of snapshots, scrolls and deletes |
| ChatRoom.RunPreservesValid | src/components/ChatRoom.jsx:39-42 | every transition keeps a cursor whenever messages are shown |
| ChatRoom.ReachableStates | src/components/ChatRoom.jsx:22-25 | every state reachable from the initial one has a cursor for its messages, and exhaustion is permanent from there |
| ChatList.OtherUsers | src/components/ChatList.jsx:26-31 | the user list holds exactly the fetched users whose id is not the current user's, in fetch order |
| ChatList.ChatsOf | src/components/ChatList.jsx:39-41 | the followed chats are exactly those whose (possibly absent) member list contains the user, in snapshot order |
| ChatList.PartnerId | src/components/ChatList.jsx:48 | the partner is the first member who is not the user, and is absent exactly when every member is the user |
| ChatList.UnreadCount | src/components/ChatList.jsx:60-64 | at most the number of messages, zero without a partner, and zero exactly when no message is from the partner and unread by the user |
| ChatList.UnreadCountAppend | src/components/ChatList.jsx:60-64 | a message appended to the chat raises the counter by one exactly when it is unread |
| ChatList.ReceiptsClearUnread | src/components/ChatList.jsx:60-64 | once every message of the chat carries the user's receipt, the counter is zero |
| ChatList.WindowReceiptsLeaveOlder | src/components/ChatList.jsx:60-64 | receipts on the messages the room loaded leave exactly the unread count of the older messages it did not load |
| ChatList.LastTimestamp | src/components/ChatList.jsx:65-66 | the last message's timestamp, absent for an empty chat |
| ChatList.PartnerProfile | src/components/ChatList.jsx:54-57 | the stored profile, or the `Unknown` placeholder when the document is missing |
| ChatList.Summarize | src/components/ChatList.jsx:46-79 | no summary exactly when every member of the chat is the user (the profile lookup throws); otherwise the chat's id, a partner who is a member other than the user, the partner's profile or placeholder, the unread counter of the messages and the last message's timestamp |
| ChatList.SummaryAfterReceipts | src/components/ChatList.jsx:46-64 | once every message of the chat carries the user's receipt, the chat's summary exists as before, names the same partner and counts nothing unread |
| ChatList.SortKey | src/components/ChatList.jsx:81-82 | the comparator key is the last timestamp, and 0 for a chat without one |
| ChatList.UpsertHistory | src/components/ChatList.jsx:68-85 | the new history is sorted newest first (a missing timestamp counts as 0) and is a permutation of the other chats' entries plus the new one |
| ChatList.UpsertHistoryMembers | src/components/ChatList.jsx:69-79 | an entry is in the new history exactly when it is the new entry or an old entry of another chat |
| ChatList.UpsertHistoryStable | src/components/ChatList.jsx:80-84 | among entries with the same timestamp the old entries keep their order and the new entry comes after them |
| ChatList.UpsertHistoryUnique | src/components/ChatList.jsx:69-79 | after an update the new entry is in the list, and exactly one position carries the chat's id |
| ChatList.DeleteChat | src/components/ChatList.jsx:115-127 | when not confirmed nothing changes; when confirmed exactly the entries of other chats remain |
| ChatList.DeleteChatExactly | src/components/ChatList.jsx:126 | every entry of the chat goes; the others keep their multiplicity and order |
| ChatList.ChatId | src/components/ChatList.jsx:98 | the id is one user id, `_`, then the other, so its length is theirs plus one |
| ChatList.ChatIdSymmetric | src/components/ChatList.jsx:98 | both members compute the same chat id |
| ChatList.ChatIdOrdered | src/components/ChatList.jsx:98 | the id is the smaller user id, `_`, then the larger one |
| ChatList.ChatIdInjective | src/components/ChatList.jsx:98 | for user ids without `_`, equal chat ids come from the same pair of users |
| ChatList.ChatIdCollision | src/components/ChatList.jsx:98 | with `_` inside user ids, two different pairs share a chat id |
| ChatList.StartChat | src/components/ChatList.jsx:100-113 | a document is created exactly when none exists, with the pair's chat id and the two members in order |
| ChatList.StartedChatPartner | src/components/ChatList.jsx:100-113 | a started chat is followed by its creator and names the other user as partner |
| ChatList.DisplayKey | src/components/ChatList.jsx:130 | the name when present and non-empty, else the email when present, else the empty string |
| ChatList.FilteredUsers | src/components/ChatList.jsx:129-131 | exactly the users whose lower-cased display key contains the lower-cased query, in their original order |
| ChatList.EmptyQueryKeepsAll | src/components/ChatList.jsx:129-131 | an empty query keeps every user in order |
| ChatList.QueryCaseIgnored | src/components/ChatList.jsx:130 | lower-casing the query first does not change the result |
| ChatList.SearchExcludesSelf | src/components/ChatList.jsx:31 | the current user is never a search result |
| JsStrings.Trim | src/components/ChatRoom.jsx:95 | the result is a middle slice whose cut-off ends are all whitespace and whose own ends are not whitespace |
| JsStrings.TrimEmptyIff | src/components/ChatRoom.jsx:95-96 | a draft trims to nothing exactly when it is all whitespace |
| JsStrings.TrimIdempotent | src/components/ChatRoom.jsx:95 | trimming twice is trimming once |
| JsStrings.ToLower | src/components/ChatList.jsx:130 | same length, each ASCII capital lowered, no capital left |
| JsStrings.ToLowerIdempotent | src/components/ChatList.jsx:130 | lower-casing twice is lower-casing once |
| JsStrings.Includes | src/components/ChatList.jsx:130 | true exactly when the needle occurs at some position |
| JsStrings.IncludesEmpty | src/components/ChatList.jsx:130 | the empty query occurs in every key |
| JsStrings.LessAsymmetric | src/components/ChatList.jsx:98 | the string order used by `sort()` is never both ways round |
| JsStrings.LessTrichotomy | src/components/ChatList.jsx:98 | two strings neither of which sorts first are equal |
| Seqs.FilterMultiplicity | src/components/ChatRoom.jsx:112 | `filter` keeps every copy of an accepted element and no copy of a rejected one |
| Seqs.FilterIsSubsequence | src/components/ChatRoom.jsx:112 | `filter` keeps the survivors in their original relative order |
| Seqs.FilterAppend | src/components/ChatList.jsx:60-64 | filtering distributes over concatenation |
| Seqs.SortDesc | src/components/ChatList.jsx:80-84 | the result is sorted by non-increasing key and is a permutation of the input |
| Seqs.InsertDescStable | src/components/ChatList.jsx:80-84 | inserting an element into a sorted list puts it after every element with the same key, as appending would |
| Seqs.SortDescStable | src/components/ChatList.jsx:80-84 | the sort is stable: for every key, the elements with that key appear in their input order |

## Left out

- The cryptographic and text primitives are parameters, not implementations: AES-GCM, RSA-OAEP, node-forge's PEM parsing and PKCS#8 decryption, WebCrypto `importKey`, and `TextEncoder`/`TextDecoder`. The AES-GCM laws assumed are round trip, a 16-byte tag, and rejection of input shorter than a tag.
- `getRandomValues`: the IV is a parameter of length 12. Freshness is not modelled.
- All Firestore access is left out: `onSnapshot`, `getDocs`, `addDoc`, `updateDoc`, `deleteDoc` and `setDoc`. Query results are input sequences. Writes are values computed by separate functions: `Messages.Receipts` gives the `updateDoc` calls for a batch of documents, `ChatRoom.HandleSend` returns the `Outgoing` message and `ChatList.StartChat` the new `ChatDoc`. `ChatRoom.OnSnapshot` and `ChatRoom.FetchOlder` return only the new room; the receipts those handlers write are `Messages.Receipts` of the same documents. A remote call that fails is not modelled. For example, a failing `deleteDoc` leaves the local list untouched in the source, and the model assumes the call succeeds.
- React state, effects, refs, timers, scrolling, textarea sizing and `date-fns` formatting are UI concerns. The scroll container is only its `scrollTop`, or `None` before mounting.
- Asynchronous interleaving is not modelled: each handler is one atomic transition. The source updates `messages` with a functional updater, so two fetches in flight could both prepend.
- The message list is not deduplicated or re-sorted on prepend, because the source does neither.
- Encryption.DecryptEncryptedPrivateKey: `asn1.toDer(...).getBytes()` is modelled as a call that cannot throw. The wording of error messages is reduced to the `CryptoError` constructors.
- Encryption.TextLaws: the default `TextDecoder` drops a leading U+FEFF, so decoding does not invert encoding for text that starts with a byte order mark. The round trip is stated only for text that does not, and `Encryption.EnvelopeRoundTrip` promises nothing for a message that starts with U+FEFF.
- Lone UTF-16 surrogates, which `TextEncoder` replaces with U+FFFD, cannot occur: a Dafny `char` is a Unicode scalar value.
- Encryption.EncryptAesGcm: `String.fromCharCode(...result)` passes every byte as a separate argument, and JavaScript engines throw a `RangeError` past their argument limit (65536 arguments in JavaScriptCore). The model encodes envelopes of any length and does not reproduce that failure for very long messages.
- ChatList.Summarize: the listener's exceptions are not modelled beyond building no summary; the missing-partner case yields `None`, where the source rejects the listener's promise.
- Encryption.ImportAesKey: accepts 24-byte keys, as the WebCrypto specification does, although some browsers refuse 192-bit AES.
- JsStrings.ToLower: lower-cases only ASCII capitals. Full Unicode case mapping (`toLowerCase` on non-ASCII letters) is not modelled.
- JsStrings.Less: compares Unicode code points, whereas JavaScript compares UTF-16 code units. The two orders differ only for characters outside the Basic Multilingual Plane, which Firebase user ids do not contain.
- Message timestamps are integers (milliseconds), with `None` for a pending server timestamp. `toMillis` and `serverTimestamp` are not modelled.
- ChatList.SortKey: Firestore's `toMillis()` returns `seconds * 1000 + nanoseconds / 1e6`, a fractional millisecond count. The source's comparator therefore orders two chats whose last messages fall in the same millisecond, while the model's integer key ties them and keeps their insertion order.
- Seqs.SortDesc: the comparator sort is modelled as an insertion sort. `Array.prototype.sort` is stable since ECMAScript 2019, and stability is proved separately (`Seqs.SortDescStable`).
- Login, password reset, navigation, the HTTP API wrappers and the build configuration are outside the modelled core.

=== FILE: base64.dfy ===
/** The base64 transport encoding of the message envelope.  Encoding is
    `btoa` applied to a binary string (one character per byte): the padded
    encoding of section 4 of RFC 4648.  Decoding is `atob` followed by
    `charCodeAt`: the "forgiving-base64 decode" of the WHATWG Infra standard,
    which skips ASCII whitespace, accepts missing padding and rejects any
    other character outside the alphabet. */
module Base64 {
  import opened Wrappers
  import Seqs

  type byte = x: int | 0 <= x < 256
  type sextet = x: int | 0 <= x < 64

  /** The 64 characters of table 1 of RFC 4648. */
  predicate IsAlphabetChar(c: char) {
    ('A' <= c <= 'Z') || ('a' <= c <= 'z') || ('0' <= c <= '9') || c == '+' || c == '/'
  }

  /** The value a character of the alphabet stands for. */
  function IndexOf(c: char): sextet
    requires IsAlphabetChar(c)
  {
    if 'A' <= c <= 'Z' then c as int - 'A' as int
    else if 'a' <= c <= 'z' then c as int - 'a' as int + 26
    else if '0' <= c <= '9' then c as int - '0' as int + 52
    else if c == '+' then 62
    else 63
  }

  /** The character table 1 of RFC 4648 assigns to `v`. */
  function CharOf(v: sextet): (c: char)
    ensures IsAlphabetChar(c)
  {
    if v < 26 then ('A' as int + v) as char
    else if v < 52 then ('a' as int + (v - 26)) as char
    else if v < 62 then ('0' as int + (v - 52)) as char
    else if v == 62 then '+'
    else '/'
  }

  /** Table 1 read forwards and backwards agrees. */
  lemma IndexOfCharOf(v: sextet)
    ensures IndexOf(CharOf(v)) == v
  {
  }

  /** Sextet `k` of the 24-bit group `b0 b1 b2`, most significant first. */
  function Cut(k: nat, b0: byte, b1: byte, b2: byte): sextet
    requires k < 4
  {
    if k == 0 then b0 / 4
    else if k == 1 then (b0 % 4) * 16 + b1 / 16
    else if k == 2 then (b1 % 16) * 4 + b2 / 64
    else b2 % 64
  }

  /** Byte `k` of a group, rebuilt from its sextets `k` and `k + 1`. */
  function Join(k: nat, x: sextet, y: sextet): byte
    requires k < 3
  {
    if k == 0 then x * 4 + y / 16
    else if k == 1 then (x % 16) * 16 + y / 4
    else (x % 4) * 64 + y
  }

  /** Joining the sextets of a group gives back its bytes. */
  lemma JoinCut(k: nat, b0: byte, b1: byte, b2: byte)
    requires k < 3
    ensures Join(k, Cut(k, b0, b1, b2), Cut(k + 1, b0, b1, b2))
            == if k == 0 then b0 else if k == 1 then b1 else b2
  {
    if k == 0 {
      JoinCutFirst(b0, b1);
    } else if k == 1 {
      JoinCutSecond(b0, b1, b2);
    } else {
      JoinCutThird(b1, b2);
    }
  }

  lemma JoinCutFirst(b0: byte, b1: byte)
    ensures Join(0, Cut(0, b0, b1, 0), Cut(1, b0, b1, 0)) == b0
  {
    var y := (b0 % 4) * 16 + b1 / 16;
    assert y / 16 == b0 % 4;
  }

  lemma JoinCutSecond(b0: byte, b1: byte, b2: byte)
    ensures Join(1, Cut(1, b0, b1, b2), Cut(2, b0, b1, b2)) == b1
  {
    var y, z := (b0 % 4) * 16 + b1 / 16, (b1 % 16) * 4 + b2 / 64;
    assert y % 16 == b1 / 16 && z / 4 == b1 % 16;
  }

  lemma JoinCutThird(b1: byte, b2: byte)
    ensures Join(2, Cut(2, 0, b1, b2), Cut(3, 0, b1, b2)) == b2
  {
    var z := (b1 % 16) * 4 + b2 / 64;
    assert z % 4 == b2 / 64;
  }

  /** Byte `k` of `b`, or zero past its end: the zero bits that complete a
      final partial group (section 3.5 of RFC 4648). */
  function ByteOrZero(b: seq<byte>, k: int): byte {
    if 0 <= k < |b| then b[k] else 0
  }

  /** Sextet `i` of the bit string of `b`: sextet `i % 4` of group `i / 4`. */
  function SextetAt(b: seq<byte>, i: nat): sextet {
    var g := 3 * (i / 4);
    Cut(i % 4, ByteOrZero(b, g), ByteOrZero(b, g + 1), ByteOrZero(b, g + 2))
  }

  /** Characters needed for `n` bytes: one per started sextet of 8n bits. */
  function UnpaddedLength(n: nat): nat {
    (8 * n + 5) / 6
  }

  /** The encoding without its `=` padding: one character per started sextet,
      the last one filled up with zero bits. */
  function EncodeUnpadded(b: seq<byte>): (s: seq<char>)
    ensures |s| == UnpaddedLength(|b|)
    ensures forall i :: 0 <= i < |s| ==> IsAlphabetChar(s[i])
  {
    seq(UnpaddedLength(|b|), i requires 0 <= i => CharOf(SextetAt(b, i)))
  }

  /** `btoa(String.fromCharCode(...b))`: section 4 of RFC 4648, padded with
      `=` to a multiple of four characters. */
  function Encode(b: seq<byte>): (s: seq<char>)
    ensures forall i :: 0 <= i < |s| ==> IsAlphabetChar(s[i]) || s[i] == '='
  {
    EncodeUnpadded(b) + (if |b| % 3 == 1 then "==" else if |b| % 3 == 2 then "=" else "")
  }

  /** The ASCII whitespace that forgiving decoding skips: tab, line feed,
      form feed, carriage return and space. */
  predicate IsAsciiWhitespace(c: char) {
    c == '\t' || c == '\n' || c == '\U{C}' || c == '\r' || c == ' '
  }

  predicate IsSignificant(c: char) {
    !IsAsciiWhitespace(c)
  }

  /** One or two trailing `=` are dropped, but only from an input whose length
      is a multiple of four. */
  function StripPadding(s: seq<char>): seq<char> {
    if |s| % 4 == 0 && |s| >= 2 && s[|s| - 2..] == "==" then s[..|s| - 2]
    else if |s| % 4 == 0 && |s| >= 1 && s[|s| - 1] == '=' then s[..|s| - 1]
    else s
  }

  /** Whole bytes carried by `m` sextets; leftover bits are discarded. */
  function DecodedLength(m: nat): nat {
    6 * m / 8
  }

  /** The first sextet byte `j` is read from: sextet `j % 3` of group `j / 3`. */
  function SourceOf(j: nat): nat {
    4 * (j / 3) + j % 3
  }

  /** The sextets a byte is read from lie inside text of `m` characters. */
  lemma SourceInRange(m: nat, j: nat)
    requires j < DecodedLength(m)
    ensures SourceOf(j) + 1 < m
  {
    var g, k := j / 3, j % 3;
    assert j == 3 * g + k;
    assert 8 * (j + 1) <= 6 * m;
  }

  /** Byte `j` of alphabet text, rebuilt from two neighbouring sextets. */
  function ByteAt(s: seq<char>, j: nat): byte
    requires forall i :: 0 <= i < |s| ==> IsAlphabetChar(s[i])
    requires j < DecodedLength(|s|)
  {
    SourceInRange(|s|, j);
    Join(j % 3, IndexOf(s[SourceOf(j)]), IndexOf(s[SourceOf(j) + 1]))
  }

  /** The bytes of padding-free alphabet text; leftover bits of a final
      partial group are discarded. */
  function DecodeUnpadded(s: seq<char>): (b: seq<byte>)
    requires forall i :: 0 <= i < |s| ==> IsAlphabetChar(s[i])
    ensures |b| == DecodedLength(|s|) && |b| <= |s|
  {
    seq(DecodedLength(|s|), j requires 0 <= j < DecodedLength(|s|) => ByteAt(s, j))
  }

  /** `atob(s)` read back as bytes; `None` where `atob` throws. */
  function Decode(s: seq<char>): (r: Option<seq<byte>>)
    ensures r.Some? ==> |r.value| <= |s|
  {
    var t := StripPadding(Seqs.Filter(s, IsSignificant));
    if |t| % 4 == 1 then None
    else if exists i :: 0 <= i < |t| && !IsAlphabetChar(t[i]) then None
    else Some(DecodeUnpadded(t))
  }

  /** Divisions by the constants of the codec, pinned by their bounds. */
  lemma Div4Between(x: int, q: int)
    requires 4 * q <= x < 4 * q + 4
    ensures x / 4 == q && x % 4 == x - 4 * q
  {
  }

  lemma Div3Between(x: int, q: int)
    requires 3 * q <= x < 3 * q + 3
    ensures x / 3 == q && x % 3 == x - 3 * q
  {
  }

  lemma Div6Between(x: int, q: int)
    requires 6 * q <= x < 6 * q + 6
    ensures x / 6 == q
  {
  }

  lemma Div8Between(x: int, q: int)
    requires 8 * q <= x < 8 * q + 8
    ensures x / 8 == q
  {
  }

  /** The unpadded length split into whole groups and a remainder of zero,
      two or three characters. */
  lemma UnpaddedLengthSplit(n: nat)
    ensures UnpaddedLength(n) == 4 * (n / 3) + (if n % 3 == 0 then 0 else n % 3 + 1)
  {
    var q, r := n / 3, n % 3;
    var c := if r == 0 then 0 else r + 1;
    assert 6 * (4 * q + c) <= 8 * n + 5 < 6 * (4 * q + c) + 6;
    Div6Between(8 * n + 5, 4 * q + c);
  }

  /** Decoding the encoding of `n` bytes yields `n` bytes. */
  lemma DecodedLengthOfEncoding(n: nat)
    ensures DecodedLength(UnpaddedLength(n)) == n
  {
    UnpaddedLengthSplit(n);
    var m := UnpaddedLength(n);
    assert 8 * n <= 6 * m < 8 * n + 8;
    Div8Between(6 * m, n);
  }

  /** Character `i` of the encoding stands for sextet `i` of the bytes. */
  lemma EncodedSextet(b: seq<byte>, i: nat)
    requires i < UnpaddedLength(|b|)
    ensures IndexOf(EncodeUnpadded(b)[i]) == SextetAt(b, i)
  {
    assert EncodeUnpadded(b)[i] == CharOf(SextetAt(b, i));
    IndexOfCharOf(SextetAt(b, i));
  }

  /** Sextet `k` of group `g` is cut from the group's three bytes. */
  lemma SextetOfGroup(b: seq<byte>, g: nat, k: nat)
    requires k < 4
    ensures SextetAt(b, 4 * g + k)
            == Cut(k, ByteOrZero(b, 3 * g), ByteOrZero(b, 3 * g + 1), ByteOrZero(b, 3 * g + 2))
  {
    Div4Between(4 * g + k, g);
  }

  /** Character `k` of group `g` of the encoding stands for sextet `k` of
      bytes `3g`, `3g + 1` and `3g + 2`. */
  lemma EncodedGroupSextet(b: seq<byte>, i: nat, g: nat, k: nat)
    requires k < 4 && i == 4 * g + k && i < UnpaddedLength(|b|)
    ensures IndexOf(EncodeUnpadded(b)[i])
            == Cut(k, ByteOrZero(b, 3 * g), ByteOrZero(b, 3 * g + 1), ByteOrZero(b, 3 * g + 2))
  {
    EncodedSextet(b, i);
    SextetOfGroup(b, g, k);
  }

  /** Joining sextets `k` and `k + 1` of group `g` gives back byte `k` of
      the group. */
  lemma JoinCutGroup(b: seq<byte>, g: nat, k: nat)
    requires k < 3
    ensures var b0, b1, b2 := ByteOrZero(b, 3 * g), ByteOrZero(b, 3 * g + 1), ByteOrZero(b, 3 * g + 2);
            Join(k, Cut(k, b0, b1, b2), Cut(k + 1, b0, b1, b2)) == ByteOrZero(b, 3 * g + k)
  {
    JoinCut(k, ByteOrZero(b, 3 * g), ByteOrZero(b, 3 * g + 1), ByteOrZero(b, 3 * g + 2));
  }

  /** Byte `k` of group `g` is read from characters `k` and `k + 1` of
      group `g`. */
  lemma ByteAtGroup(s: seq<char>, g: nat, k: nat)
    requires forall i :: 0 <= i < |s| ==> IsAlphabetChar(s[i])
    requires k < 3 && 3 * g + k < DecodedLength(|s|)
    ensures 4 * g + k + 1 < |s|
    ensures ByteAt(s, 3 * g + k) == Join(k, IndexOf(s[4 * g + k]), IndexOf(s[4 * g + k + 1]))
  {
    Div3Between(3 * g + k, g);
    SourceInRange(|s|, 3 * g + k);
  }

  /** Alphabet text whose characters `4g + k` and `4g + k + 1` carry sextets
      `k` and `k + 1` of group `g` of `b` decodes to byte `3g + k` of `b`. */
  lemma ByteFromSextets(s: seq<char>, b: seq<byte>, g: nat, k: nat)
    requires forall i :: 0 <= i < |s| ==> IsAlphabetChar(s[i])
    requires k < 3 && 3 * g + k < DecodedLength(|s|) && 3 * g + k < |b|
    requires 4 * g + k + 1 < |s|
    requires var b0, b1, b2 := ByteOrZero(b, 3 * g), ByteOrZero(b, 3 * g + 1), ByteOrZero(b, 3 * g + 2);
             && IndexOf(s[4 * g + k]) == Cut(k, b0, b1, b2)
             && IndexOf(s[4 * g + k + 1]) == Cut(k + 1, b0, b1, b2)
    ensures ByteAt(s, 3 * g + k) == b[3 * g + k]
  {
    ByteAtGroup(s, g, k);
    JoinCutGroup(b, g, k);
  }

  /** Byte `k` of group `g` is read back from the two sextets encoding put
      it in. */
  lemma ByteOfGroup(b: seq<byte>, g: nat, k: nat)
    requires k < 3 && 3 * g + k < |b|
    ensures 3 * g + k < DecodedLength(|EncodeUnpadded(b)|)
    ensures ByteAt(EncodeUnpadded(b), 3 * g + k) == b[3 * g + k]
  {
    var s := EncodeUnpadded(b);
    DecodedLengthOfEncoding(|b|);
    EncodedGroupSextet(b, 4 * g + k, g, k);
    EncodedGroupSextet(b, 4 * g + k + 1, g, k + 1);
    ByteFromSextets(s, b, g, k);
  }

  /** The two sextets byte `j` is read from are the ones encoding put it in. */
  lemma ByteAtEncoding(b: seq<byte>, j: nat)
    requires j < |b|
    ensures j < DecodedLength(|EncodeUnpadded(b)|)
    ensures ByteAt(EncodeUnpadded(b), j) == b[j]
  {
    var g, k := j / 3, j % 3;
    assert j == 3 * g + k;
    ByteOfGroup(b, g, k);
  }

  /** Decoding inverts the unpadded encoding. */
  lemma UnpaddedRoundTrip(b: seq<byte>)
    ensures DecodeUnpadded(EncodeUnpadded(b)) == b
  {
    var d := DecodeUnpadded(EncodeUnpadded(b));
    DecodedLengthOfEncoding(|b|);
    forall j | 0 <= j < |b|
      ensures d[j] == b[j]
    {
      ByteAtEncoding(b, j);
    }
  }

  /** The unpadded length modulo four: whole groups leave no remainder, one
      or two trailing bytes leave two or three characters. */
  lemma UnpaddedLengthMod(n: nat)
    ensures UnpaddedLength(n) % 4 == (if n % 3 == 0 then 0 else n % 3 + 1)
  {
    UnpaddedLengthSplit(n);
    var c := if n % 3 == 0 then 0 else n % 3 + 1;
    assert UnpaddedLength(n) == 4 * (n / 3) + c;
  }

  /** `btoa` output is four characters for every started group of three bytes. */
  lemma EncodedLength(b: seq<byte>)
    ensures |Encode(b)| == 4 * ((|b| + 2) / 3)
    ensures |Encode(b)| % 4 == 0
  {
    UnpaddedLengthSplit(|b|);
    var n, q, r := |b|, |b| / 3, |b| % 3;
    var m := |Encode(b)|;
    assert m == 4 * q + (if r == 0 then 0 else 4);
    assert (n + 2) / 3 == if r == 0 then q else q + 1;
  }

  /** Text of a length divisible by four that does not end in `=` is not
      touched by padding removal. */
  lemma StripNoPadding(u: seq<char>)
    requires |u| % 4 == 0
    requires |u| > 0 ==> IsAlphabetChar(u[|u| - 1])
    ensures StripPadding(u) == u
  {
    if |u| >= 2 {
      assert u[|u| - 2..][1] == u[|u| - 1];
    }
  }

  /** A `==` added to text of length 2 modulo 4 is stripped again. */
  lemma StripDoublePadding(u: seq<char>)
    requires |u| % 4 == 2
    ensures StripPadding(u + "==") == u
  {
    var s := u + "==";
    assert s[|s| - 2..] == "==";
    assert s[..|s| - 2] == u;
  }

  /** A single `=` added to alphabet text of length 3 modulo 4 is stripped
      again, and nothing more. */
  lemma StripSinglePadding(u: seq<char>)
    requires |u| % 4 == 3
    requires IsAlphabetChar(u[|u| - 1])
    ensures StripPadding(u + "=") == u
  {
    var s := u + "=";
    assert s[|s| - 2..][0] == u[|u| - 1];
    assert s[..|s| - 1] == u;
  }

  /** Forgiving decoding removes exactly the padding that encoding added. */
  lemma StripEncodePadding(b: seq<byte>)
    ensures StripPadding(Encode(b)) == EncodeUnpadded(b)
  {
    var u := EncodeUnpadded(b);
    UnpaddedLengthMod(|b|);
    if |b| % 3 == 0 {
      assert Encode(b) == u;
      StripNoPadding(u);
    } else if |b| % 3 == 1 {
      assert Encode(b) == u + "==";
      StripDoublePadding(u);
    } else {
      assert Encode(b) == u + "=";
      StripSinglePadding(u);
    }
  }

  /** Text that has no whitespace, keeps a valid length once its padding is
      stripped and is otherwise all alphabet decodes group by group. */
  lemma DecodeClean(s: seq<char>)
    requires forall i :: 0 <= i < |s| ==> IsSignificant(s[i])
    requires |StripPadding(s)| % 4 != 1
    requires forall i :: 0 <= i < |StripPadding(s)| ==> IsAlphabetChar(StripPadding(s)[i])
    ensures Decode(s) == Some(DecodeUnpadded(StripPadding(s)))
  {
    Seqs.FilterKeepsAll(s, IsSignificant);
  }

  /** Padding removal only drops `=` from the end: the text kept is a prefix
      and everything else stays. */
  lemma StripKeepsPrefix(t: seq<char>)
    ensures |StripPadding(t)| <= |t| && StripPadding(t) == t[..|StripPadding(t)|]
    ensures forall i :: |StripPadding(t)| <= i < |t| ==> t[i] == '='
  {
    if |t| % 4 == 0 && |t| >= 2 && t[|t| - 2..] == "==" {
      assert t[|t| - 2] == t[|t| - 2..][0] && t[|t| - 1] == t[|t| - 2..][1];
    }
  }

  /** `atob` throws on any character that is neither in the alphabet, nor
      ASCII whitespace, nor `=`. */
  lemma DecodeRejectsForeign(s: seq<char>, i: nat)
    requires i < |s| && !IsAlphabetChar(s[i]) && !IsAsciiWhitespace(s[i]) && s[i] != '='
    ensures Decode(s) == None
  {
    var f := Seqs.Filter(s, IsSignificant);
    var t := StripPadding(f);
    assert s[i] in f;
    var k :| 0 <= k < |f| && f[k] == s[i];
    StripKeepsPrefix(f);
    assert k < |t| && t[k] == s[i];
  }

  /** Whitespace anywhere in the text does not change what `atob` returns. */
  lemma DecodeIgnoresWhitespace(s: seq<char>)
    ensures Decode(Seqs.Filter(s, IsSignificant)) == Decode(s)
  {
    Seqs.FilterIdempotent(s, IsSignificant);
  }

  /** The transport encoding round-trips: `atob(btoa(b))` gives back every
      byte sequence unchanged. */
  lemma RoundTrip(b: seq<byte>)
    ensures Decode(Encode(b)) == Some(b)
  {
    var s := Encode(b);
    var u := EncodeUnpadded(b);
    StripEncodePadding(b);
    UnpaddedLengthMod(|b|);
    DecodeClean(s);
    UnpaddedRoundTrip(b);
  }
}

=== FILE: chat_list.dfy ===
/** The bookkeeping of the chat overview (`src/components/ChatList.jsx`): the
    two-party chat id, the per-chat summary (partner, unread count, last
    timestamp), the recent-chats list kept newest first, chat deletion and
    the user search. */
module ChatList {
  import opened Wrappers
  import opened Messages
  import Seqs
  import JsStrings

  /** A document of the `users` collection. */
  datatype User = User(id: string, name: Option<string>, email: Option<string>)

  /** A document of the `chats` collection; `users` may be absent. */
  datatype ChatDoc = ChatDoc(id: string, users: Option<seq<string>>)

  /** The profile shown for a chat partner. */
  datatype Profile = Profile(name: Option<string>, email: Option<string>)

  /** One entry of the recent-chats list. */
  datatype ChatSummary = ChatSummary(
    id: string,
    partnerId: Option<string>,
    partner: Profile,
    unread: nat,
    lastTimestamp: Option<int>)

  /** `fetchAllUsers`: every user but the current one. */
  function OtherUsers(docs: seq<User>, uid: string): (users: seq<User>)
    ensures forall u :: u in users <==> u in docs && u.id != uid
    ensures Seqs.IsSubsequence(users, docs)
  {
    Seqs.FilterIsSubsequence(docs, (u: User) => u.id != uid);
    Seqs.Filter(docs, (u: User) => u.id != uid)
  }

  /** The chats the snapshot listener follows: those listing the current user. */
  function ChatsOf(docs: seq<ChatDoc>, uid: string): (chats: seq<ChatDoc>)
    ensures forall c :: c in chats <==> c in docs && uid in c.users.GetOr([])
    ensures Seqs.IsSubsequence(chats, docs)
  {
    Seqs.FilterIsSubsequence(docs, (c: ChatDoc) => uid in c.users.GetOr([]));
    Seqs.Filter(docs, (c: ChatDoc) => uid in c.users.GetOr([]))
  }

  /** `chatUsers.find(id => id !== uid)`: the first member who is not the
      current user. */
  function PartnerId(chatUsers: seq<string>, uid: string): (p: Option<string>)
    ensures p.None? <==> forall i :: 0 <= i < |chatUsers| ==> chatUsers[i] == uid
    ensures p.Some? ==> exists k :: 0 <= k < |chatUsers| && chatUsers[k] == p.value
                          && p.value != uid && forall i :: 0 <= i < k ==> chatUsers[i] == uid
    decreases |chatUsers|
  {
    if |chatUsers| == 0 then None
    else if chatUsers[0] != uid then Some(chatUsers[0])
    else
      var p := PartnerId(chatUsers[1..], uid);
      assert forall i :: 1 <= i < |chatUsers| ==> chatUsers[i] == chatUsers[1..][i - 1];
      if p.Some? then
        var k :| 0 <= k < |chatUsers[1..]| && chatUsers[1..][k] == p.value
                 && forall i :: 0 <= i < k ==> chatUsers[1..][i] == uid;
        assert chatUsers[k + 1] == p.value;
        p
      else p
  }

  /** A message counts as unread when the partner sent it and the current
      user is not among its readers. */
  predicate IsUnread(m: Message, partnerId: Option<string>, uid: string) {
    partnerId == Some(m.senderId) && !HasRead(m, uid)
  }

  /** The unread counter of a chat. */
  function UnreadCount(msgs: seq<Message>, partnerId: Option<string>, uid: string): (n: nat)
    ensures n <= |msgs|
    ensures partnerId.None? ==> n == 0
    ensures n == 0 <==> forall i :: 0 <= i < |msgs| ==> !IsUnread(msgs[i], partnerId, uid)
  {
    var unread := Seqs.Filter(msgs, (m: Message) => IsUnread(m, partnerId, uid));
    assert |unread| > 0 ==> unread[0] in unread && unread[0] in msgs;
    assert forall i :: 0 <= i < |msgs| && IsUnread(msgs[i], partnerId, uid) ==> msgs[i] in unread;
    |unread|
  }

  /** A message arriving at the end of the chat raises the counter by one
      exactly when it is unread. */
  lemma UnreadCountAppend(msgs: seq<Message>, m: Message, partnerId: Option<string>, uid: string)
    ensures UnreadCount(msgs + [m], partnerId, uid)
            == UnreadCount(msgs, partnerId, uid) + (if IsUnread(m, partnerId, uid) then 1 else 0)
  {
    Seqs.FilterAppend(msgs, [m], (m: Message) => IsUnread(m, partnerId, uid));
  }

  /** Once every message of the chat carries the user's receipt, nothing is
      unread. */
  lemma ReceiptsClearUnread(msgs: seq<Message>, partnerId: Option<string>, uid: string)
    ensures UnreadCount(ApplyReceipts(msgs, uid), partnerId, uid) == 0
  {
  }

  /** The chat room marks only the messages it has loaded (the live window of
      the last `PAGE_SIZE` messages and the pages fetched before it), so the
      counter drops to the unread messages among the older ones it never
      loaded. */
  lemma WindowReceiptsLeaveOlder(older: seq<Message>, window: seq<Message>, partnerId: Option<string>, uid: string)
    ensures UnreadCount(older + ApplyReceipts(window, uid), partnerId, uid) == UnreadCount(older, partnerId, uid)
  {
    var marked := ApplyReceipts(window, uid);
    Seqs.FilterAppend(older, marked, (m: Message) => IsUnread(m, partnerId, uid));
    ReceiptsClearUnread(window, partnerId, uid);
  }

  /** `lastMsg?.timestamp || null`: the timestamp of the last message, absent
      for an empty chat or a pending server timestamp. */
  function LastTimestamp(msgs: seq<Message>): (t: Option<int>)
    ensures |msgs| == 0 ==> t == None
    ensures |msgs| > 0 ==> t == msgs[|msgs| - 1].timestamp
  {
    if |msgs| == 0 then None else msgs[|msgs| - 1].timestamp
  }

  /** `userDoc.exists() ? userDoc.data() : { email: "Unknown" }`. */
  function PartnerProfile(doc: Option<Profile>): (p: Profile)
    ensures doc.Some? ==> p == doc.value
    ensures doc.None? ==> p.name == None && p.email == Some("Unknown")
  {
    doc.GetOr(Profile(None, Some("Unknown")))
  }

  /** The summary the message listener of `chat` builds from its messages.
      Without a partner the profile lookup `doc(db, "users", undefined)`
      throws, so no summary is built. */
  function Summarize(chat: ChatDoc, uid: string, msgs: seq<Message>, partnerDoc: Option<Profile>): (c: Option<ChatSummary>)
    ensures c.None? <==> forall i :: 0 <= i < |chat.users.GetOr([])| ==> chat.users.GetOr([])[i] == uid
    ensures c.Some? ==>
              && c.value.id == chat.id
              && c.value.partnerId.Some? && c.value.partnerId.value != uid
              && c.value.partnerId.value in chat.users.GetOr([])
              && c.value.partner == PartnerProfile(partnerDoc)
              && c.value.unread == UnreadCount(msgs, c.value.partnerId, uid)
              && c.value.lastTimestamp == LastTimestamp(msgs)
  {
    var partnerId := PartnerId(chat.users.GetOr([]), uid);
    if partnerId.None? then None
    else Some(ChatSummary(chat.id, partnerId, PartnerProfile(partnerDoc), UnreadCount(msgs, partnerId, uid), LastTimestamp(msgs)))
  }

  /** Once every message of the chat carries the user's receipt, the chat's
      summary shows nothing unread and still names the same partner. */
  lemma SummaryAfterReceipts(chat: ChatDoc, uid: string, msgs: seq<Message>, partnerDoc: Option<Profile>)
    ensures var before := Summarize(chat, uid, msgs, partnerDoc);
            var after := Summarize(chat, uid, ApplyReceipts(msgs, uid), partnerDoc);
            && (after.Some? <==> before.Some?)
            && (after.Some? ==> after.value.unread == 0 && after.value.partnerId == before.value.partnerId)
  {
    ReceiptsClearUnread(msgs, PartnerId(chat.users.GetOr([]), uid), uid);
  }

  /** `a.lastTimestamp?.toMillis?.() || 0`. */
  function SortKey(c: ChatSummary): (k: int)
    ensures c.lastTimestamp.None? ==> k == 0
    ensures c.lastTimestamp.Some? ==> k == c.lastTimestamp.value
  {
    c.lastTimestamp.GetOr(0)
  }

  /** The `setChatHistory` updater: drop the old entry of the chat, append the
      new one, sort newest first. */
  function UpsertHistory(prev: seq<ChatSummary>, entry: ChatSummary): (h: seq<ChatSummary>)
    ensures Seqs.SortedDesc(h, SortKey)
    ensures multiset(h) == multiset(Seqs.Filter(prev, (c: ChatSummary) => c.id != entry.id)) + multiset{entry}
  {
    var others := Seqs.Filter(prev, (c: ChatSummary) => c.id != entry.id);
    assert multiset(others + [entry]) == multiset(others) + multiset{entry};
    Seqs.SortDesc(others + [entry], SortKey)
  }

  /** The sort is stable: entries with equal keys keep their previous order,
      and the new entry follows the old ones with its key. */
  lemma UpsertHistoryStable(prev: seq<ChatSummary>, entry: ChatSummary, t: int)
    ensures Seqs.Filter(UpsertHistory(prev, entry), Seqs.KeyIs(SortKey, t))
            == Seqs.Filter(Seqs.Filter(prev, (c: ChatSummary) => c.id != entry.id), Seqs.KeyIs(SortKey, t))
               + (if SortKey(entry) == t then [entry] else [])
  {
    var others := Seqs.Filter(prev, (c: ChatSummary) => c.id != entry.id);
    var sameKey := Seqs.KeyIs(SortKey, t);
    assert Seqs.Filter(UpsertHistory(prev, entry), sameKey) == Seqs.Filter(others + [entry], sameKey) by {
      Seqs.SortDescStable(others + [entry], SortKey);
    }
    Seqs.FilterAppend(others, [entry], sameKey);
    Seqs.FilterCons(entry, [], sameKey);
  }

  /** After an update the chat's entry is the new one, every other chat keeps
      its entries, and nothing else is in the list. */
  lemma UpsertHistoryMembers(prev: seq<ChatSummary>, entry: ChatSummary)
    ensures forall c :: c in UpsertHistory(prev, entry) <==> c == entry || (c in prev && c.id != entry.id)
  {
    var h := UpsertHistory(prev, entry);
    var others := Seqs.Filter(prev, (c: ChatSummary) => c.id != entry.id);
    forall c
      ensures c in h <==> c == entry || (c in prev && c.id != entry.id)
    {
      assert c in h <==> c in multiset(h);
      assert c in others <==> c in multiset(others);
    }
  }

  /** After an update exactly one entry carries the chat's id, and it is the
      new entry. */
  lemma UpsertHistoryUnique(prev: seq<ChatSummary>, entry: ChatSummary)
    ensures var h := UpsertHistory(prev, entry);
      exists i :: 0 <= i < |h| && h[i] == entry
    ensures var h := UpsertHistory(prev, entry);
      forall i, j :: 0 <= i < |h| && 0 <= j < |h| && h[i].id == entry.id && h[j].id == entry.id ==> i == j
  {
    var h := UpsertHistory(prev, entry);
    assert multiset(h)[entry] == 1 by {
      Seqs.FilterMultiplicity(prev, (c: ChatSummary) => c.id != entry.id, entry);
    }
    assert entry in h by {
      assert entry in multiset(h);
    }
    forall i, j | 0 <= i < j < |h| && h[i].id == entry.id && h[j].id == entry.id
      ensures false
    {
      assert h[i] == entry && h[j] == entry by {
        assert h[i] in h && h[j] in h;
        UpsertHistoryMembers(prev, entry);
      }
      Seqs.TwoPositions(h, i, j);
    }
  }

  /** `deleteChat(chatId)` after the confirmation dialog answered
      `confirmed`: the recent-chats list drops that chat. */
  function DeleteChat(history: seq<ChatSummary>, chatId: string, confirmed: bool): (h: seq<ChatSummary>)
    ensures !confirmed ==> h == history
    ensures forall c :: c in h <==> c in history && (!confirmed || c.id != chatId)
  {
    if confirmed then Seqs.Filter(history, (c: ChatSummary) => c.id != chatId) else history
  }

  /** A confirmed delete removes every entry of the chat and keeps the other
      entries, each as often as before and in the same order. */
  lemma DeleteChatExactly(history: seq<ChatSummary>, chatId: string, c: ChatSummary)
    ensures multiset(DeleteChat(history, chatId, true))[c] == if c.id == chatId then 0 else multiset(history)[c]
    ensures Seqs.IsSubsequence(DeleteChat(history, chatId, true), history)
  {
    Seqs.FilterMultiplicity(history, (c: ChatSummary) => c.id != chatId, c);
    Seqs.FilterIsSubsequence(history, (c: ChatSummary) => c.id != chatId);
  }

  /** `[uid1, uid2].sort().join("_")`. */
  function ChatId(uid1: string, uid2: string): (id: string)
    ensures id == uid1 + "_" + uid2 || id == uid2 + "_" + uid1
    ensures |id| == |uid1| + |uid2| + 1
  {
    if JsStrings.Less(uid2, uid1) then uid2 + "_" + uid1 else uid1 + "_" + uid2
  }

  /** Both members compute the same chat id. */
  lemma ChatIdSymmetric(a: string, b: string)
    ensures ChatId(a, b) == ChatId(b, a)
  {
    JsStrings.LessAsymmetric(a, b);
    JsStrings.LessTrichotomy(a, b);
  }

  /** The chat id is the smaller id, `_`, then the larger one. */
  lemma ChatIdOrdered(a: string, b: string)
    ensures exists lo, hi ::
              && multiset{lo, hi} == multiset{a, b}
              && !JsStrings.Less(hi, lo)
              && ChatId(a, b) == lo + "_" + hi
  {
    JsStrings.LessAsymmetric(a, b);
    if JsStrings.Less(b, a) {
      assert multiset{b, a} == multiset{a, b};
      assert ChatId(a, b) == b + "_" + a;
    } else {
      assert ChatId(a, b) == a + "_" + b;
    }
  }

  /** In `x + "_" + y` with no `_` in `x`, the first `_` is at position `|x|`. */
  lemma FirstSeparator(x: string, y: string)
    requires '_' !in x
    ensures (x + "_" + y)[|x|] == '_'
    ensures forall i :: 0 <= i < |x| ==> (x + "_" + y)[i] != '_'
  {
    forall i | 0 <= i < |x|
      ensures (x + "_" + y)[i] != '_'
    {
      assert (x + "_" + y)[i] == x[i];
    }
  }

  /** Splitting at the first `_`: an id without `_` is recovered from the
      front of `id + "_" + rest`. */
  lemma SeparatorSplit(x: string, y: string, u: string, v: string)
    requires '_' !in x && '_' !in u
    requires x + "_" + y == u + "_" + v
    ensures x == u && y == v
  {
    var s := x + "_" + y;
    FirstSeparator(x, y);
    FirstSeparator(u, v);
    assert |x| == |u|;
    assert x == s[..|x|] && u == s[..|u|];
    assert y == s[|x| + 1..] && v == s[|u| + 1..];
  }

  /** For ids without `_` (Firebase user ids are alphanumeric), different
      pairs of users get different chat ids. */
  lemma ChatIdInjective(a: string, b: string, c: string, d: string)
    requires '_' !in a && '_' !in b && '_' !in c && '_' !in d
    requires ChatId(a, b) == ChatId(c, d)
    ensures multiset{a, b} == multiset{c, d}
  {
    if JsStrings.Less(b, a) {
      if JsStrings.Less(d, c) { SeparatorSplit(b, a, d, c); } else { SeparatorSplit(b, a, c, d); }
    } else {
      if JsStrings.Less(d, c) { SeparatorSplit(a, b, d, c); } else { SeparatorSplit(a, b, c, d); }
    }
  }

  /** Ids that contain `_` can collide: two different pairs share a chat id. */
  lemma ChatIdCollision()
    ensures ChatId("a", "b_c") == ChatId("a_b", "c")
  {
    assert JsStrings.Less("a", "b_c");
    assert JsStrings.Less("a_b", "c");
  }

  /** `startChat(otherUser)`: the chat document created when none exists yet. */
  function StartChat(uid: string, other: User, chatExists: bool): (doc: Option<ChatDoc>)
    ensures chatExists <==> doc.None?
    ensures doc.Some? ==> doc.value.id == ChatId(uid, other.id) && doc.value.users == Some([uid, other.id])
  {
    if chatExists then None else Some(ChatDoc(ChatId(uid, other.id), Some([uid, other.id])))
  }

  /** A chat started with another user lists the current user and names the
      other one as partner, so its summary shows the right person. */
  lemma StartedChatPartner(uid: string, other: User)
    requires other.id != uid
    ensures var doc := StartChat(uid, other, false).value;
      && uid in doc.users.GetOr([])
      && PartnerId(doc.users.GetOr([]), uid) == Some(other.id)
  {
  }

  /** `u.name || u.email || ""`: an absent or empty field falls through. */
  function DisplayKey(u: User): (k: string)
    ensures u.name.Some? && u.name.value != "" ==> k == u.name.value
    ensures (u.name.None? || u.name == Some("")) && u.email.Some? ==> k == u.email.value
    ensures (u.name.None? || u.name == Some("")) && (u.email.None? || u.email == Some("")) ==> k == ""
  {
    if u.name.Some? && u.name.value != "" then u.name.value
    else if u.email.Some? && u.email.value != "" then u.email.value
    else ""
  }

  /** Whether `u` is a search hit for `query`, ignoring (ASCII) case. */
  predicate Matches(u: User, query: string) {
    JsStrings.Includes(JsStrings.ToLower(DisplayKey(u)), JsStrings.ToLower(query))
  }

  /** `filteredUsers`: the users whose display key contains the query. */
  function FilteredUsers(users: seq<User>, query: string): (r: seq<User>)
    ensures forall u :: u in r <==> u in users && Matches(u, query)
    ensures Seqs.IsSubsequence(r, users)
  {
    Seqs.FilterIsSubsequence(users, (u: User) => Matches(u, query));
    Seqs.Filter(users, (u: User) => Matches(u, query))
  }

  /** An empty query keeps every user, in order. */
  lemma EmptyQueryKeepsAll(users: seq<User>)
    ensures FilteredUsers(users, "") == users
  {
    forall u: User
      ensures Matches(u, "")
    {
      JsStrings.IncludesEmpty(JsStrings.ToLower(DisplayKey(u)));
    }
    Seqs.FilterKeepsAll(users, (u: User) => Matches(u, ""));
  }

  /** The search ignores the case of the query. */
  lemma QueryCaseIgnored(users: seq<User>, query: string)
    ensures FilteredUsers(users, JsStrings.ToLower(query)) == FilteredUsers(users, query)
  {
    JsStrings.ToLowerIdempotent(query);
    Seqs.FilterExtensional(users, (u: User) => Matches(u, JsStrings.ToLower(query)), (u: User) => Matches(u, query));
  }

  /** The current user never shows up in the search. */
  lemma SearchExcludesSelf(docs: seq<User>, uid: string, query: string)
    ensures forall u :: u in FilteredUsers(OtherUsers(docs, uid), query) ==> u.id != uid
  {
  }
}

=== FILE: chat_room.dfy ===
/** The message list of one open chat (`src/components/ChatRoom.jsx`): a live
    snapshot of the newest page, backward pagination on scroll, sending and
    deleting.  Each handler is one atomic transition of `Room`; the Firestore
    query results it awaits are inputs. */
module ChatRoom {
  import opened Wrappers
  import opened Messages
  import Seqs
  import JsStrings

  /** Messages per query, for the live window and for each older page. */
  const PAGE_SIZE: nat := 20
  /** Scroll offset from the top, in pixels, under which older messages load. */
  const SCROLL_THRESHOLD: int := 80

  /** The component state: the displayed messages (oldest first), the cursor
      document for the next older page, and whether older pages may remain. */
  datatype Room = Room(messages: seq<Message>, oldestDoc: Option<Message>, hasMore: bool)

  /** `useState([])`, `useState(null)`, `useState(true)`. */
  function Initial(): (s: Room)
    ensures s.messages == [] && s.oldestDoc == None && s.hasMore
  {
    Room([], None, true)
  }

  /** Displayed messages always come with a cursor to page back from. */
  ghost predicate Valid(s: Room) {
    |s.messages| > 0 ==> s.oldestDoc.Some?
  }

  /** The `onSnapshot` handler: the snapshot replaces the list; the cursor
      moves to its first document only when there is one. */
  function OnSnapshot(s: Room, docs: seq<Message>): (s': Room)
    ensures s'.messages == docs
    ensures |docs| > 0 ==> s'.oldestDoc == Some(docs[0])
    ensures |docs| == 0 ==> s'.oldestDoc == s.oldestDoc
    ensures s'.hasMore == s.hasMore
  {
    Room(docs, if |docs| > 0 then Some(docs[0]) else s.oldestDoc, s.hasMore)
  }

  /** The guard of `fetchOlder`: a cursor exists and history may remain. */
  predicate CanFetchOlder(s: Room) {
    s.oldestDoc.Some? && s.hasMore
  }

  /** The guard is what decides whether paging back does anything: some page
      changes the room exactly when it holds. */
  lemma FetchOlderGuard(s: Room)
    ensures CanFetchOlder(s) <==> exists page :: FetchOlder(s, page) != s
  {
    if CanFetchOlder(s) {
      assert FetchOlder(s, []) != s;
    }
  }

  /** `fetchOlder` given the page its query returns.  With the guard false
      nothing changes; an empty page ends the history; otherwise the page is
      put in front, the cursor moves to its first document, and a short page
      ends the history. */
  function FetchOlder(s: Room, page: seq<Message>): (s': Room)
    ensures !CanFetchOlder(s) ==> s' == s
    ensures CanFetchOlder(s) && |page| == 0 ==> s' == s.(hasMore := false)
    ensures CanFetchOlder(s) && |page| > 0 ==>
              && s'.messages == page + s.messages
              && s'.oldestDoc == Some(page[0])
              && (s'.hasMore <==> |page| >= PAGE_SIZE)
    ensures |s'.messages| >= |s.messages| && s'.messages[|s'.messages| - |s.messages|..] == s.messages
    ensures s'.hasMore ==> s.hasMore
  {
    if !CanFetchOlder(s) then s
    else if |page| == 0 then s.(hasMore := false)
    else
      var s' := Room(page + s.messages, Some(page[0]), s.hasMore);
      assert s'.messages[|page|..] == s.messages;
      if |page| < PAGE_SIZE then s'.(hasMore := false) else s'
  }

  /** `handleScroll`: the scroll container's `scrollTop`, `None` while the
      element is not mounted; older messages are requested only near the top
      and while history may remain. */
  function HandleScroll(s: Room, scrollTop: Option<int>, page: seq<Message>): (s': Room)
    ensures s' != s ==> scrollTop.Some? && scrollTop.value < SCROLL_THRESHOLD && s.hasMore && s.oldestDoc.Some?
    ensures scrollTop.Some? && scrollTop.value < SCROLL_THRESHOLD ==> s' == FetchOlder(s, page)
  {
    if scrollTop.Some? && scrollTop.value < SCROLL_THRESHOLD && s.hasMore then FetchOlder(s, page) else s
  }

  /** `deleteMessage(id)` after the confirmation dialog answered `confirmed`:
      the local list drops the messages with that id. */
  function DeleteMessage(s: Room, id: string, confirmed: bool): (s': Room)
    ensures !confirmed ==> s' == s
    ensures forall m :: m in s'.messages <==> m in s.messages && (!confirmed || m.id != id)
    ensures s'.oldestDoc == s.oldestDoc && s'.hasMore == s.hasMore
  {
    if confirmed then s.(messages := Seqs.Filter(s.messages, (m: Message) => m.id != id)) else s
  }

  /** A confirmed delete removes every copy of a message with that id, keeps
      every copy of every other message, and keeps their order. */
  lemma DeleteRemovesExactly(s: Room, id: string, m: Message)
    ensures multiset(DeleteMessage(s, id, true).messages)[m]
            == if m.id == id then 0 else multiset(s.messages)[m]
    ensures Seqs.IsSubsequence(DeleteMessage(s, id, true).messages, s.messages)
  {
    Seqs.FilterMultiplicity(s.messages, (m: Message) => m.id != id, m);
    Seqs.FilterIsSubsequence(s.messages, (m: Message) => m.id != id);
  }

  /** The document `handleSend` adds; its `timestamp` is the server's. */
  datatype Outgoing = Outgoing(text: string, senderId: string, readBy: seq<string>)

  /** `handleSend`: the new draft text and the document added, if any. */
  datatype SendOutcome = SendOutcome(draft: string, sent: Option<Outgoing>)

  /** `handleSend` for the draft `draft` of user `uid`: nothing is sent for a
      blank draft; otherwise the trimmed text is sent as read by its sender
      and the draft is cleared. */
  function HandleSend(draft: string, uid: string): (r: SendOutcome)
    ensures r.sent.None? <==> JsStrings.AllWhitespace(draft)
    ensures r.sent.None? ==> r.draft == draft
    ensures r.sent.Some? ==>
              && r.draft == ""
              && r.sent.value.text == JsStrings.Trim(draft)
              && |r.sent.value.text| > 0
              && r.sent.value.senderId == uid
              && r.sent.value.readBy == [uid]
  {
    var text := JsStrings.Trim(draft);
    JsStrings.TrimEmptyIff(draft);
    if |text| == 0 then SendOutcome(draft, None)
    else SendOutcome("", Some(Outgoing(text, uid, [uid])))
  }

  /** The transitions of the room, each handler run to completion. */
  datatype Event =
    | Snapshot(docs: seq<Message>)
    | Scroll(scrollTop: Option<int>, page: seq<Message>)
    | Delete(id: string, confirmed: bool)

  function Step(s: Room, e: Event): Room {
    match e
    case Snapshot(docs) => OnSnapshot(s, docs)
    case Scroll(top, page) => HandleScroll(s, top, page)
    case Delete(id, confirmed) => DeleteMessage(s, id, confirmed)
  }

  function Run(s: Room, es: seq<Event>): Room
    decreases |es|
  {
    if |es| == 0 then s else Run(Step(s, es[0]), es[1..])
  }

  /** Once the history is exhausted it stays exhausted, whatever happens next. */
  lemma {:induction false} ExhaustionIsPermanent(s: Room, es: seq<Event>)
    requires !s.hasMore
    ensures !Run(s, es).hasMore
    decreases |es|
  {
    if |es| > 0 {
      ExhaustionIsPermanent(Step(s, es[0]), es[1..]);
    }
  }

  /** On an exhausted room no scroll fetches anything, whatever the page. */
  lemma ExhaustedScrollIsNoOp(s: Room, scrollTop: Option<int>, page: seq<Message>)
    requires !s.hasMore
    ensures HandleScroll(s, scrollTop, page) == s
  {
  }

  /** Every transition keeps a cursor for displayed messages. */
  lemma {:induction false} RunPreservesValid(s: Room, es: seq<Event>)
    requires Valid(s)
    ensures Valid(Run(s, es))
    decreases |es|
  {
    if |es| > 0 {
      assert Valid(Step(s, es[0]));
      RunPreservesValid(Step(s, es[0]), es[1..]);
    }
  }

  /** Starting from the initial state, every reachable state is valid and
      once history is exhausted it stays so. */
  lemma ReachableStates(es: seq<Event>, more: seq<Event>)
    ensures Valid(Run(Initial(), es))
    ensures !Run(Initial(), es).hasMore ==> !Run(Run(Initial(), es), more).hasMore
  {
    RunPreservesValid(Initial(), es);
    if !Run(Initial(), es).hasMore {
      ExhaustionIsPermanent(Run(Initial(), es), more);
    }
  }
}

=== FILE: encryption.dfy ===
/** The message envelope and key handling of `src/tools/encryption.js`.

    The cryptographic and text primitives are library calls (WebCrypto,
    node-forge, `TextEncoder`/`TextDecoder`) and are modelled as function-valued
    parameters.  The laws the model relies on are stated once, as predicates
    (`AeadLaws`, `TextLaws`), and appear as preconditions of the lemmas that
    need them.  The envelope framing and the base64 transport are concrete. */
module Encryption {
  import opened Wrappers
  import opened Base64
  import JsStrings

  /** Length of the AES-GCM initialisation vector (96 bits). */
  const IV_LENGTH: nat := 12
  /** Length of the AES-GCM authentication tag WebCrypto appends by default (128 bits). */
  const TAG_LENGTH: nat := 16

  /** Why a promise of this module rejects. */
  datatype CryptoError =
    | InvalidBase64            // `atob` throws on text that is not base64
    | OperationFailed          // WebCrypto `decrypt` rejects (authentication or length failure)
    | InvalidKeyLength         // WebCrypto refuses raw AES key material of that length
    | MissingPemOrPassword     // "Missing PEM or password."
    | IncorrectPasswordOrCorruptPem
    | ImportFailed             // "WebCrypto import failed: ..."
    | Unexpected               // a library call threw: "Unexpected error: ..."

  /** An AES-GCM key as imported from raw bytes. */
  datatype AesKey = AesKey(raw: seq<byte>)

  /** AES-GCM as WebCrypto exposes it: `seal(key, iv, plaintext)` is
      `crypto.subtle.encrypt` (ciphertext with the tag appended), `open` is
      `crypto.subtle.decrypt`, `None` when its promise rejects. */
  datatype Aead = Aead(
    seal: (AesKey, seq<byte>, seq<byte>) -> seq<byte>,
    open: (AesKey, seq<byte>, seq<byte>) -> Option<seq<byte>>)

  /** What the model assumes of AES-GCM: opening what was sealed under the same
      key and IV gives the plaintext back; the output is the plaintext plus a
      16-byte tag; input shorter than a tag is rejected. */
  ghost predicate AeadLaws(c: Aead) {
    && (forall k, iv, m :: c.open(k, iv, c.seal(k, iv, m)) == Some(m))
    && (forall k, iv, m :: |c.seal(k, iv, m)| == |m| + TAG_LENGTH)
    && (forall k, iv, ct :: |ct| < TAG_LENGTH ==> c.open(k, iv, ct) == None)
  }

  /** `TextEncoder.encode` and `TextDecoder.decode` (UTF-8). */
  datatype TextCodec = TextCodec(encode: string -> seq<byte>, decode: seq<byte> -> string)

  /** The text does not start with U+FEFF, the byte order mark that a default
      `TextDecoder` (`ignoreBOM` false) drops from the front of its input. */
  predicate NoLeadingBom(s: string) {
    |s| == 0 || s[0] != '\U{FEFF}'
  }

  /** UTF-8 decoding inverts UTF-8 encoding, except that a leading byte order
      mark is consumed by the decoder.  A Dafny `char` is a Unicode scalar
      value, so there are no lone surrogates that `TextEncoder` would
      replace. */
  ghost predicate TextLaws(u: TextCodec) {
    forall s :: NoLeadingBom(s) ==> u.decode(u.encode(s)) == s
  }

  /** The envelope before transport encoding: the IV, then the cipher output
      (the two `result.set` calls into a buffer of the summed length). */
  function Frame(iv: seq<byte>, sealed: seq<byte>): (buf: seq<byte>)
    ensures |buf| == |iv| + |sealed|
    ensures buf[..|iv|] == iv && buf[|iv|..] == sealed
  {
    iv + sealed
  }

  /** `raw.slice(0, 12)` and `raw.slice(12)`.  Slicing clamps, so a buffer of
      fewer than 12 bytes is not rejected here: it all becomes the IV and the
      ciphertext is empty. */
  function Split(raw: seq<byte>): (parts: (seq<byte>, seq<byte>))
    ensures parts.0 + parts.1 == raw
    ensures |raw| >= IV_LENGTH ==> |parts.0| == IV_LENGTH
    ensures |raw| < IV_LENGTH ==> parts.0 == raw && parts.1 == []
  {
    var n := if |raw| < IV_LENGTH then |raw| else IV_LENGTH;
    assert raw[..n] + raw[n..] == raw;
    (raw[..n], raw[n..])
  }

  /** Splitting a framed envelope gives back its IV and its cipher output. */
  lemma SplitFrame(iv: seq<byte>, sealed: seq<byte>)
    requires |iv| == IV_LENGTH
    ensures Split(Frame(iv, sealed)) == (iv, sealed)
  {
  }

  /** `encryptAESGCM(message, aesKey)`.  The fresh random IV of
      `getRandomValues` is the parameter `iv`. */
  function EncryptAesGcm(c: Aead, u: TextCodec, message: string, key: AesKey, iv: seq<byte>): (envelope: string)
    requires |iv| == IV_LENGTH
    ensures Decode(envelope) == Some(iv + c.seal(key, iv, u.encode(message)))
    ensures |envelope| == 4 * ((IV_LENGTH + |c.seal(key, iv, u.encode(message))| + 2) / 3)
    ensures forall i :: 0 <= i < |envelope| ==> IsAlphabetChar(envelope[i]) || envelope[i] == '='
  {
    var buf := Frame(iv, c.seal(key, iv, u.encode(message)));
    RoundTrip(buf);
    EncodedLength(buf);
    Encode(buf)
  }

  /** `decryptAESGCM(base64Message, aesKey)`: base64-decode, split off the IV,
      decrypt the rest and decode it as UTF-8. */
  function DecryptAesGcm(c: Aead, u: TextCodec, envelope: string, key: AesKey): (r: Result<string, CryptoError>)
    ensures Decode(envelope) == None ==> r == Failure(InvalidBase64)
    ensures Decode(envelope).Some? ==>
              var parts := Split(Decode(envelope).value);
              && (c.open(key, parts.0, parts.1).None? ==> r == Failure(OperationFailed))
              && (c.open(key, parts.0, parts.1).Some? ==> r == Success(u.decode(c.open(key, parts.0, parts.1).value)))
    ensures r.Success? ==> exists pt ::
              && Decode(envelope).Some?
              && c.open(key, Split(Decode(envelope).value).0, Split(Decode(envelope).value).1) == Some(pt)
              && r.value == u.decode(pt)
  {
    match Decode(envelope)
    case None => Failure(InvalidBase64)
    case Some(raw) =>
      var (iv, ct) := Split(raw);
      match c.open(key, iv, ct)
      case None => Failure(OperationFailed)
      case Some(pt) => Success(u.decode(pt))
  }

  /** Decryption inverts encryption: under the AES-GCM and UTF-8 laws, the
      envelope produced for a `message` that does not start with a byte order
      mark decrypts under `key` to `message`, whatever IV was drawn. */
  lemma EnvelopeRoundTrip(c: Aead, u: TextCodec, message: string, key: AesKey, iv: seq<byte>)
    requires AeadLaws(c) && TextLaws(u)
    requires NoLeadingBom(message)
    requires |iv| == IV_LENGTH
    ensures DecryptAesGcm(c, u, EncryptAesGcm(c, u, message, key, iv), key) == Success(message)
  {
    var sealed := c.seal(key, iv, u.encode(message));
    SplitFrame(iv, sealed);
    assert Split(iv + sealed) == (iv, sealed);
  }

  /** Text that went through `trim`, as `handleSend` trims a draft, never
      starts with U+FEFF (a JavaScript whitespace character), so its envelope
      would decrypt to it.  `handleSend` itself stores the trimmed text
      unencrypted; this is a property of the envelope functions applied to
      such text, not of the send path. */
  lemma TrimmedMessageRoundTrip(c: Aead, u: TextCodec, draft: string, key: AesKey, iv: seq<byte>)
    requires AeadLaws(c) && TextLaws(u)
    requires |iv| == IV_LENGTH
    ensures var text := JsStrings.Trim(draft);
            DecryptAesGcm(c, u, EncryptAesGcm(c, u, text, key, iv), key) == Success(text)
  {
    var text := JsStrings.Trim(draft);
    assert JsStrings.IsJsWhitespace('\U{FEFF}');
    assert NoLeadingBom(text);
    EnvelopeRoundTrip(c, u, text, key, iv);
  }

  /** An envelope is exactly 12 + |plaintext bytes| + 16 bytes before base64. */
  lemma EnvelopeLength(c: Aead, u: TextCodec, message: string, key: AesKey, iv: seq<byte>)
    requires AeadLaws(c)
    requires |iv| == IV_LENGTH
    ensures Decode(EncryptAesGcm(c, u, message, key, iv)).Some?
    ensures |Decode(EncryptAesGcm(c, u, message, key, iv)).value|
            == IV_LENGTH + |u.encode(message)| + TAG_LENGTH
  {
  }

  /** A decoded buffer too short to hold an IV and a tag is rejected by the
      cipher, not by the framing. */
  lemma ShortEnvelopeRejected(c: Aead, u: TextCodec, envelope: string, key: AesKey)
    requires AeadLaws(c)
    requires Decode(envelope).Some? && |Decode(envelope).value| < IV_LENGTH + TAG_LENGTH
    ensures DecryptAesGcm(c, u, envelope, key) == Failure(OperationFailed)
  {
    var raw := Decode(envelope).value;
    var (iv, ct) := Split(raw);
    assert |ct| < TAG_LENGTH;
  }

  /** `importAESKeyFromBuffer(buffer)`: WebCrypto imports raw AES key
      material of 128, 192 or 256 bits and rejects every other length. */
  function ImportAesKey(buffer: seq<byte>): (r: Result<AesKey, CryptoError>)
    ensures r.Success? <==> |buffer| == 16 || |buffer| == 24 || |buffer| == 32
    ensures r.Success? ==> r.value.raw == buffer
    ensures r.Failure? ==> r.error == InvalidKeyLength
  {
    if |buffer| == 16 || |buffer| == 24 || |buffer| == 32 then Success(AesKey(buffer))
    else Failure(InvalidKeyLength)
  }

  /** RSA-OAEP decryption as WebCrypto exposes it; `None` when the promise rejects. */
  datatype RsaOaep<!PrivateKey> = RsaOaep(decrypt: (PrivateKey, seq<byte>) -> Option<seq<byte>>)

  /** `decryptRSA(base64Data, privateKey)`: base64-decode, then RSA-OAEP decrypt. */
  function DecryptRsa<PrivateKey>(rsa: RsaOaep<PrivateKey>, data: string, key: PrivateKey): (r: Result<seq<byte>, CryptoError>)
    ensures Decode(data) == None ==> r == Failure(InvalidBase64)
    ensures Decode(data).Some? && rsa.decrypt(key, Decode(data).value).None? ==> r == Failure(OperationFailed)
    ensures r.Success? <==> Decode(data).Some? && rsa.decrypt(key, Decode(data).value).Some?
    ensures r.Success? ==> r.value == rsa.decrypt(key, Decode(data).value).value
  {
    match Decode(data)
    case None => Failure(InvalidBase64)
    case Some(bytes) =>
      match rsa.decrypt(key, bytes)
      case None => Failure(OperationFailed)
      case Some(plain) => Success(plain)
  }

  /** The base64 transport is transparent to RSA-OAEP: decrypting the encoding
      of a wrapped key gives what decrypting the wrapped key itself gives. */
  lemma RsaTransport<PrivateKey>(rsa: RsaOaep<PrivateKey>, wrapped: seq<byte>, key: PrivateKey)
    ensures DecryptRsa(rsa, Encode(wrapped), key).Success? <==> rsa.decrypt(key, wrapped).Some?
    ensures rsa.decrypt(key, wrapped).Some? ==>
              DecryptRsa(rsa, Encode(wrapped), key) == Success(rsa.decrypt(key, wrapped).value)
    ensures rsa.decrypt(key, wrapped).None? ==> DecryptRsa(rsa, Encode(wrapped), key) == Failure(OperationFailed)
  {
    RoundTrip(wrapped);
  }

  /** The outcome of a library call that may throw. */
  datatype Call<T> = Returned(value: T) | Threw

  /** The node-forge and WebCrypto calls of `decryptEncryptedPrivateKey`:
      `encryptedPrivateKeyFromPem`, `decryptPrivateKeyInfo` (which returns
      `null` on a wrong password), `asn1.toDer(...).getBytes()` (a binary
      string) and `importKey("pkcs8", ...)`. */
  datatype Pkcs8Toolkit<!Info, !KeyInfo, Key> = Pkcs8Toolkit(
    parsePem: string -> Call<Info>,
    decryptInfo: (Info, string) -> Call<Option<KeyInfo>>,
    toDer: KeyInfo -> string,
    importPkcs8: seq<byte> -> Option<Key>)

  /** JavaScript's `!x` for an optional string: absent or empty. */
  predicate Missing(x: Option<string>) {
    x == None || x == Some("")
  }

  /** Storing `charCodeAt(i)` into a `Uint8Array` keeps it modulo 256. */
  function ByteOfChar(c: char): byte {
    (c as int) % 256
  }

  /** The byte copy of a binary string, position by position. */
  function CharCodes(s: string): (b: seq<byte>)
    ensures |b| == |s|
    ensures forall i :: 0 <= i < |s| ==> b[i] == ByteOfChar(s[i])
  {
    seq(|s|, i requires 0 <= i < |s| => ByteOfChar(s[i]))
  }

  /** The loop that copies the DER string into a fresh `Uint8Array`. */
  method CopyDer(der: string) returns (buffer: seq<byte>)
    ensures |buffer| == |der|
    ensures forall i :: 0 <= i < |der| ==> buffer[i] == ByteOfChar(der[i])
  {
    buffer := seq(|der|, _ => 0);
    var i := 0;
    while i < |der|
      invariant 0 <= i <= |der|
      invariant |buffer| == |der|
      invariant forall j :: 0 <= j < i ==> buffer[j] == ByteOfChar(der[j])
    {
      buffer := buffer[i := ByteOfChar(der[i])];
      i := i + 1;
    }
  }

  /** A binary string (every code below 256), as `getBytes` returns, is
      copied without loss: each byte is the code of its character, and the
      characters can be read back from the bytes. */
  lemma CopyIsLossless(der: string)
    requires forall i :: 0 <= i < |der| ==> der[i] as int < 256
    ensures forall i :: 0 <= i < |der| ==> CharCodes(der)[i] == der[i] as int
    ensures forall i :: 0 <= i < |der| ==> CharCodes(der)[i] as char == der[i]
  {
  }

  /** `decryptEncryptedPrivateKey(pem, password)`. */
  method DecryptEncryptedPrivateKey<Info, KeyInfo, Key>(
    tk: Pkcs8Toolkit<Info, KeyInfo, Key>, pem: Option<string>, password: Option<string>)
    returns (r: Result<Key, CryptoError>)
    // Rejected before any parsing when either input is missing.
    ensures Missing(pem) || Missing(password) ==> r == Failure(MissingPemOrPassword)
    // A PEM the library cannot parse, or a decryption that throws, is an unexpected error.
    ensures !Missing(pem) && !Missing(password) && tk.parsePem(pem.value).Threw? ==> r == Failure(Unexpected)
    ensures (&& !Missing(pem) && !Missing(password) && tk.parsePem(pem.value).Returned?
             && tk.decryptInfo(tk.parsePem(pem.value).value, password.value).Threw?)
            ==> r == Failure(Unexpected)
    // A null decryption result is rejected and nothing is imported.
    ensures (&& !Missing(pem) && !Missing(password) && tk.parsePem(pem.value).Returned?
             && tk.decryptInfo(tk.parsePem(pem.value).value, password.value) == Returned(None))
            ==> r == Failure(IncorrectPasswordOrCorruptPem)
    // Otherwise the key is whatever importing the byte copy of the DER gives.
    ensures (&& !Missing(pem) && !Missing(password) && tk.parsePem(pem.value).Returned?
             && var info := tk.decryptInfo(tk.parsePem(pem.value).value, password.value);
             && info.Returned? && info.value.Some?)
            ==>
              var der := tk.toDer(tk.decryptInfo(tk.parsePem(pem.value).value, password.value).value.value);
              && (tk.importPkcs8(CharCodes(der)).Some? ==> r == Success(tk.importPkcs8(CharCodes(der)).value))
              && (tk.importPkcs8(CharCodes(der)).None? ==> r == Failure(ImportFailed))
    ensures r.Success? ==>
              && !Missing(pem) && !Missing(password)
              && tk.parsePem(pem.value).Returned?
              && var info := tk.decryptInfo(tk.parsePem(pem.value).value, password.value);
              && info.Returned? && info.value.Some?
              && tk.importPkcs8(CharCodes(tk.toDer(info.value.value))) == Some(r.value)
    ensures r.Failure? && r.error == ImportFailed ==>
              && !Missing(pem) && !Missing(password)
              && tk.parsePem(pem.value).Returned?
              && var info := tk.decryptInfo(tk.parsePem(pem.value).value, password.value);
              && info.Returned? && info.value.Some?
              && tk.importPkcs8(CharCodes(tk.toDer(info.value.value))) == None
  {
    if Missing(pem) || Missing(password) {
      return Failure(MissingPemOrPassword);
    }
    var parsed := tk.parsePem(pem.value);
    if parsed.Threw? {
      return Failure(Unexpected);
    }
    var decrypted := tk.decryptInfo(parsed.value, password.value);
    if decrypted.Threw? {
      return Failure(Unexpected);
    }
    if decrypted.value.None? {
      return Failure(IncorrectPasswordOrCorruptPem);
    }
    var der := tk.toDer(decrypted.value.value);
    var buffer := CopyDer(der);
    assert buffer == CharCodes(der);
    var imported := tk.importPkcs8(buffer);
    if imported.None? {
      return Failure(ImportFailed);
    }
    return Success(imported.value);
  }
}

=== FILE: js_strings.dfy ===
/** The JavaScript string built-ins the client relies on: `trim`,
    `toLowerCase`, `includes` and the `<` order that `Array.prototype.sort`
    uses on strings. */
module JsStrings {

  /** The WhiteSpace and LineTerminator code points of ECMAScript that `trim`
      removes (sections 12.2 and 12.3 of ECMA-262): tab, vertical tab, form
      feed, space, no-break space, byte order mark, the space separators of
      the Zs category, and the four line terminators. */
  predicate IsJsWhitespace(c: char) {
    c == '\t' || c == '\n' || c == '\U{B}' || c == '\U{C}' || c == '\r' || c == ' '
    || c == '\U{A0}' || c == '\U{1680}' || ('\U{2000}' <= c <= '\U{200A}')
    || c == '\U{2028}' || c == '\U{2029}' || c == '\U{202F}' || c == '\U{205F}'
    || c == '\U{3000}' || c == '\U{FEFF}'
  }

  ghost predicate AllWhitespace(s: string) {
    forall i :: 0 <= i < |s| ==> IsJsWhitespace(s[i])
  }

  /** The index of the first non-whitespace character of `s` at or after
      `i`, or `|s|` when there is none. */
  function SkipForward(s: string, i: nat): (k: nat)
    requires i <= |s|
    ensures i <= k <= |s|
    ensures forall m :: i <= m < k ==> IsJsWhitespace(s[m])
    ensures k < |s| ==> !IsJsWhitespace(s[k])
    decreases |s| - i
  {
    if i < |s| && IsJsWhitespace(s[i]) then SkipForward(s, i + 1) else i
  }

  /** The end of `s[lo..j]` once its trailing whitespace is dropped. */
  function SkipBackward(s: string, lo: nat, j: nat): (k: nat)
    requires lo <= j <= |s|
    ensures lo <= k <= j
    ensures forall m :: k <= m < j ==> IsJsWhitespace(s[m])
    ensures k > lo ==> !IsJsWhitespace(s[k - 1])
    decreases j
  {
    if lo < j && IsJsWhitespace(s[j - 1]) then SkipBackward(s, lo, j - 1) else j
  }

  /** `String.prototype.trim`: the longest middle part of `s` that neither
      starts nor ends with whitespace; everything cut off is whitespace. */
  function Trim(s: string): (r: string)
    ensures exists i, j ::
              && 0 <= i <= j <= |s| && r == s[i..j]
              && (forall m :: 0 <= m < i ==> IsJsWhitespace(s[m]))
              && (forall m :: j <= m < |s| ==> IsJsWhitespace(s[m]))
    ensures |r| > 0 ==> !IsJsWhitespace(r[0]) && !IsJsWhitespace(r[|r| - 1])
  {
    var i := SkipForward(s, 0);
    var j := SkipBackward(s, i, |s|);
    assert i < j ==> s[i..j][0] == s[i] && s[i..j][j - i - 1] == s[j - 1];
    s[i..j]
  }

  /** A string trims to nothing exactly when it is all whitespace. */
  lemma TrimEmptyIff(s: string)
    ensures Trim(s) == [] <==> AllWhitespace(s)
  {
    var i := SkipForward(s, 0);
    var j := SkipBackward(s, i, |s|);
    assert Trim(s) == s[i..j];
    if i < j {
      assert !IsJsWhitespace(s[i]);
    }
  }

  /** Trimming an already trimmed string changes nothing. */
  lemma TrimIdempotent(s: string)
    ensures Trim(Trim(s)) == Trim(s)
  {
    var r := Trim(s);
    var i := SkipForward(r, 0);
    assert i == 0;
    var j := SkipBackward(r, 0, |r|);
    assert j == |r|;
    assert r[0..|r|] == r;
  }

  /** `toLowerCase` on one code point, for the ASCII capitals. */
  function LowerChar(c: char): (d: char)
    ensures 'A' <= c <= 'Z' ==> 'a' <= d <= 'z'
    ensures !('A' <= c <= 'Z') ==> d == c
  {
    if 'A' <= c <= 'Z' then (c as int - 'A' as int + 'a' as int) as char else c
  }

  /** `String.prototype.toLowerCase`, restricted to the ASCII capitals. */
  function ToLower(s: string): (r: string)
    ensures |r| == |s|
    ensures forall i :: 0 <= i < |s| ==> r[i] == LowerChar(s[i])
    ensures forall i :: 0 <= i < |r| ==> !('A' <= r[i] <= 'Z')
  {
    seq(|s|, i requires 0 <= i < |s| => LowerChar(s[i]))
  }

  /** Lower-casing twice is lower-casing once. */
  lemma ToLowerIdempotent(s: string)
    ensures ToLower(ToLower(s)) == ToLower(s)
  {
  }

  /** `t` occurs in `s` starting at position `i`. */
  ghost predicate OccursAt(s: string, t: string, i: int) {
    0 <= i && i + |t| <= |s| && s[i..i + |t|] == t
  }

  /** `s.includes(t)`: some position of `s` starts an occurrence of `t`. */
  function Includes(s: string, t: string): (b: bool)
    ensures b <==> exists i :: OccursAt(s, t, i)
    decreases |s|
  {
    if |t| <= |s| && s[..|t|] == t then
      assert OccursAt(s, t, 0);
      true
    else if |s| == 0 then
      assert forall i :: !OccursAt(s, t, i);
      false
    else
      var b := Includes(s[1..], t);
      assert forall i :: OccursAt(s[1..], t, i) <==> OccursAt(s, t, i + 1);
      assert !OccursAt(s, t, 0);
      assert forall i :: OccursAt(s, t, i) && i > 0 ==> OccursAt(s[1..], t, i - 1);
      b
  }

  /** The empty string occurs in every string. */
  lemma IncludesEmpty(s: string)
    ensures Includes(s, [])
  {
    assert OccursAt(s, [], 0);
  }

  /** The `<` order of JavaScript on strings: lexicographic by character, a
      proper prefix being smaller. */
  predicate Less(a: string, b: string)
    decreases |a|
  {
    if |b| == 0 then false
    else if |a| == 0 then true
    else if a[0] != b[0] then a[0] < b[0]
    else Less(a[1..], b[1..])
  }

  /** `Less` is a strict order: never both ways round. */
  lemma {:induction false} LessAsymmetric(a: string, b: string)
    ensures !(Less(a, b) && Less(b, a))
    decreases |a|
  {
    if |a| > 0 && |b| > 0 && a[0] == b[0] {
      LessAsymmetric(a[1..], b[1..]);
    }
  }

  /** `Less` is total: two strings neither of which is smaller are equal. */
  lemma {:induction false} LessTrichotomy(a: string, b: string)
    ensures Less(a, b) || Less(b, a) || a == b
    decreases |a|
  {
    if |a| > 0 && |b| > 0 && a[0] == b[0] {
      LessTrichotomy(a[1..], b[1..]);
      if a[1..] == b[1..] {
        assert a == [a[0]] + a[1..] && b == [b[0]] + b[1..];
      }
    }
  }
}

=== FILE: messages.dfy ===
/** A message document of a chat's `messages` collection, as both the chat
    room and the chat list read it, and the read receipt the chat room writes
    back for every message the current user has not yet read. */
module Messages {
  import opened Wrappers
  import Seqs

  /** `{ id: d.id, ...d.data() }`.  The timestamp is in milliseconds and is
      absent while the server timestamp is pending; `readBy` may be absent. */
  datatype Message = Message(
    id: string,
    text: string,
    senderId: string,
    timestamp: Option<int>,
    readBy: Option<seq<string>>)

  /** `data.readBy || []`. */
  function ReadByOrEmpty(m: Message): seq<string> {
    m.readBy.GetOr([])
  }

  /** `data.readBy?.includes(uid)`: false when `readBy` is absent. */
  function HasRead(m: Message, uid: string): (b: bool)
    ensures m.readBy.None? ==> !b
    ensures b <==> exists i :: 0 <= i < |ReadByOrEmpty(m)| && ReadByOrEmpty(m)[i] == uid
  {
    uid in ReadByOrEmpty(m)
  }

  /** The `readBy` list written by `updateDoc` for a message `uid` has not
      read: the existing entries, then `uid` once. */
  function MarkRead(m: Message, uid: string): (m': Message)
    requires !HasRead(m, uid)
    ensures HasRead(m', uid)
    ensures ReadByOrEmpty(m') == ReadByOrEmpty(m) + [uid]
    ensures multiset(ReadByOrEmpty(m'))[uid] == 1
    ensures m'.id == m.id && m'.text == m.text && m'.senderId == m.senderId && m'.timestamp == m.timestamp
  {
    assert multiset(ReadByOrEmpty(m))[uid] == 0;
    m.(readBy := Some(ReadByOrEmpty(m) + [uid]))
  }

  /** One `updateDoc(ref, { readBy })` call. */
  datatype Receipt = Receipt(docId: string, readBy: seq<string>)

  /** The updates issued for a batch of documents: one, in document order,
      for each document `uid` has not read, and none for the others. */
  function Receipts(docs: seq<Message>, uid: string): (rs: seq<Receipt>)
    ensures |rs| == |Seqs.Filter(docs, m => !HasRead(m, uid))|
    ensures forall i :: 0 <= i < |rs| ==> uid in rs[i].readBy
    decreases |docs|
  {
    if |docs| == 0 then []
    else
      var rest := Receipts(docs[1..], uid);
      if HasRead(docs[0], uid) then rest
      else [Receipt(docs[0].id, MarkRead(docs[0], uid).readBy.value)] + rest
  }

  /** Every receipt belongs to a document `uid` had not read and keeps that
      document's previous readers; every such document gets one. */
  lemma {:induction false} ReceiptsExact(docs: seq<Message>, uid: string)
    ensures forall r :: r in Receipts(docs, uid) ==>
              exists m :: m in docs && !HasRead(m, uid) && r == Receipt(m.id, ReadByOrEmpty(m) + [uid])
    ensures forall m :: m in docs && !HasRead(m, uid) ==> Receipt(m.id, ReadByOrEmpty(m) + [uid]) in Receipts(docs, uid)
    decreases |docs|
  {
    if |docs| > 0 {
      ReceiptsExact(docs[1..], uid);
      forall m | m in docs && !HasRead(m, uid)
        ensures Receipt(m.id, ReadByOrEmpty(m) + [uid]) in Receipts(docs, uid)
      {
        if m != docs[0] {
          assert m in docs[1..];
        }
      }
    }
  }

  /** The documents after the receipts have landed: each unread one marked,
      the others untouched. */
  function ApplyReceipts(docs: seq<Message>, uid: string): (docs': seq<Message>)
    ensures |docs'| == |docs|
    ensures forall i :: 0 <= i < |docs| ==> HasRead(docs'[i], uid)
    ensures forall i :: 0 <= i < |docs| ==> docs'[i].id == docs[i].id && docs'[i].senderId == docs[i].senderId
    ensures forall i :: 0 <= i < |docs| && HasRead(docs[i], uid) ==> docs'[i] == docs[i]
    ensures forall i :: 0 <= i < |docs| && !HasRead(docs[i], uid) ==> docs'[i] == MarkRead(docs[i], uid)
  {
    seq(|docs|, i requires 0 <= i < |docs| =>
      if HasRead(docs[i], uid) then docs[i] else MarkRead(docs[i], uid))
  }
}

=== FILE: seqs.dfy ===
/** Generic list operations the client applies to its arrays: `Array.prototype.filter`
    and a sort by a numeric key, together with the facts the rest of the model
    needs about them. */
module Seqs {

  /** `xs.filter(p)`: the elements satisfying `p`, in their original order. */
  function Filter<T(!new)>(xs: seq<T>, p: T -> bool): (r: seq<T>)
    ensures |r| <= |xs|
    ensures forall x {:trigger x in r} :: x in r <==> x in xs && p(x)
    ensures forall i :: 0 <= i < |r| ==> p(r[i])
  {
    if |xs| == 0 then []
    else (if p(xs[0]) then [xs[0]] else []) + Filter(xs[1..], p)
  }

  /** `a` can be obtained from `b` by deleting elements: the order of what is
      kept is the order it had in `b`. */
  ghost predicate IsSubsequence<T>(a: seq<T>, b: seq<T>)
    decreases |b|
  {
    if |a| == 0 then true
    else if |b| == 0 then false
    else (a[0] == b[0] && IsSubsequence(a[1..], b[1..])) || IsSubsequence(a, b[1..])
  }

  /** Filtering keeps the survivors in their original relative order. */
  lemma {:induction false} FilterIsSubsequence<T(!new)>(xs: seq<T>, p: T -> bool)
    ensures IsSubsequence(Filter(xs, p), xs)
    decreases |xs|
  {
    if |xs| > 0 {
      var rest := Filter(xs[1..], p);
      FilterIsSubsequence(xs[1..], p);
      if p(xs[0]) {
        assert Filter(xs, p) == [xs[0]] + rest;
        assert ([xs[0]] + rest)[1..] == rest;
      } else {
        assert Filter(xs, p) == rest;
      }
    }
  }

  /** Filtering keeps every copy of a surviving element and no copy of a
      rejected one. */
  lemma {:induction false} FilterMultiplicity<T(!new)>(xs: seq<T>, p: T -> bool, x: T)
    ensures multiset(Filter(xs, p))[x] == if p(x) then multiset(xs)[x] else 0
    decreases |xs|
  {
    if |xs| > 0 {
      var rest := Filter(xs[1..], p);
      FilterMultiplicity(xs[1..], p, x);
      assert xs == [xs[0]] + xs[1..];
      assert multiset(xs)[x] == multiset([xs[0]])[x] + multiset(xs[1..])[x];
      if p(xs[0]) {
        assert Filter(xs, p) == [xs[0]] + rest;
        assert multiset(Filter(xs, p))[x] == multiset([xs[0]])[x] + multiset(rest)[x];
      } else {
        assert Filter(xs, p) == rest;
      }
    }
  }

  /** A filter that rejects nothing returns its input unchanged. */
  lemma {:induction false} FilterKeepsAll<T(!new)>(xs: seq<T>, p: T -> bool)
    requires forall i :: 0 <= i < |xs| ==> p(xs[i])
    ensures Filter(xs, p) == xs
    decreases |xs|
  {
    if |xs| > 0 {
      FilterKeepsAll(xs[1..], p);
      assert [xs[0]] + xs[1..] == xs;
    }
  }

  /** Filtering twice with the same predicate is the same as filtering once. */
  lemma FilterIdempotent<T(!new)>(xs: seq<T>, p: T -> bool)
    ensures Filter(Filter(xs, p), p) == Filter(xs, p)
  {
    FilterKeepsAll(Filter(xs, p), p);
  }

  /** Filtering depends only on which elements the predicate accepts. */
  lemma {:induction false} FilterExtensional<T(!new)>(xs: seq<T>, p: T -> bool, q: T -> bool)
    requires forall i :: 0 <= i < |xs| ==> p(xs[i]) == q(xs[i])
    ensures Filter(xs, p) == Filter(xs, q)
    decreases |xs|
  {
    if |xs| > 0 {
      FilterExtensional(xs[1..], p, q);
    }
  }

  /** Filtering distributes over concatenation. */
  lemma {:induction false} FilterAppend<T(!new)>(xs: seq<T>, ys: seq<T>, p: T -> bool)
    ensures Filter(xs + ys, p) == Filter(xs, p) + Filter(ys, p)
    decreases |xs|
  {
    if |xs| > 0 {
      var head := if p(xs[0]) then [xs[0]] else [];
      FilterAppend(xs[1..], ys, p);
      assert (xs + ys)[0] == xs[0] && (xs + ys)[1..] == xs[1..] + ys;
      assert Filter(xs + ys, p) == head + Filter(xs[1..] + ys, p);
      assert Filter(xs, p) == head + Filter(xs[1..], p);
      assert head + (Filter(xs[1..], p) + Filter(ys, p)) == (head + Filter(xs[1..], p)) + Filter(ys, p);
    } else {
      assert xs + ys == ys;
    }
  }

  /** Prepending one element to a filtered sequence. */
  lemma FilterCons<T(!new)>(y: T, ys: seq<T>, p: T -> bool)
    ensures Filter([y] + ys, p) == (if p(y) then [y] else []) + Filter(ys, p)
  {
    assert ([y] + ys)[0] == y && ([y] + ys)[1..] == ys;
  }

  /** A filter that accepts no element returns nothing. */
  lemma FilterNone<T(!new)>(xs: seq<T>, p: T -> bool)
    requires forall i :: 0 <= i < |xs| ==> !p(xs[i])
    ensures Filter(xs, p) == []
  {
  }

  /** Non-increasing in `key`: what a `(a, b) => key(b) - key(a)` comparator sorts into. */
  ghost predicate SortedDesc<T>(xs: seq<T>, key: T -> int) {
    forall i, j :: 0 <= i < j < |xs| ==> key(xs[i]) >= key(xs[j])
  }

  /** A sorted sequence stays sorted without its head. */
  lemma SortedTail<T>(xs: seq<T>, key: T -> int)
    requires |xs| > 0 && SortedDesc(xs, key)
    ensures SortedDesc(xs[1..], key)
  {
    forall i, j | 0 <= i < j < |xs| - 1
      ensures key(xs[1..][i]) >= key(xs[1..][j])
    {
      assert xs[1..][i] == xs[i + 1] && xs[1..][j] == xs[j + 1];
    }
  }

  /** A head no smaller than the first element keeps a sorted sequence sorted. */
  lemma SortedCons<T>(y: T, ys: seq<T>, key: T -> int)
    requires SortedDesc(ys, key)
    requires |ys| > 0 ==> key(y) >= key(ys[0])
    ensures SortedDesc([y] + ys, key)
  {
    var r := [y] + ys;
    forall i, j | 0 <= i < j < |r|
      ensures key(r[i]) >= key(r[j])
    {
      assert r[j] == ys[j - 1];
      if i > 0 {
        assert r[i] == ys[i - 1];
      } else {
        assert key(ys[0]) >= key(ys[j - 1]);
      }
    }
  }

  /** Inserts `x` after every element whose key is at least `key(x)`. */
  function InsertDesc<T>(x: T, xs: seq<T>, key: T -> int): (r: seq<T>)
    requires SortedDesc(xs, key)
    ensures SortedDesc(r, key)
    ensures multiset(r) == multiset(xs) + multiset{x}
    ensures |r| == |xs| + 1
    ensures r[0] == x || (|xs| > 0 && r[0] == xs[0])
    decreases |xs|
  {
    if |xs| == 0 then [x]
    else if key(x) > key(xs[0]) then
      SortedCons(x, xs, key);
      [x] + xs
    else
      SortedTail(xs, key);
      var rest := InsertDesc(x, xs[1..], key);
      assert xs == [xs[0]] + xs[1..];
      assert key(xs[0]) >= key(rest[0]);
      SortedCons(xs[0], rest, key);
      [xs[0]] + rest
  }

  /** A stable insertion sort into non-increasing key order: `Array.prototype.sort`
      with the comparator `(a, b) => key(b) - key(a)`. */
  function SortDesc<T>(xs: seq<T>, key: T -> int): (r: seq<T>)
    ensures SortedDesc(r, key)
    ensures multiset(r) == multiset(xs)
    ensures |r| == |xs|
    decreases |xs|
  {
    if |xs| == 0 then []
    else
      var init := xs[..|xs| - 1];
      assert xs == init + [xs[|xs| - 1]];
      InsertDesc(xs[|xs| - 1], SortDesc(init, key), key)
  }

  /** The predicate selecting the elements whose key is `k`. */
  function KeyIs<T>(key: T -> int, k: int): T -> bool {
    (x: T) => key(x) == k
  }

  /** Inserting `x` places it after every element with the same key, as
      appending it would. */
  lemma {:induction false} InsertDescStable<T(!new)>(x: T, xs: seq<T>, key: T -> int, k: int)
    requires SortedDesc(xs, key)
    ensures Filter(InsertDesc(x, xs, key), KeyIs(key, k)) == Filter(xs + [x], KeyIs(key, k))
    decreases |xs|
  {
    var p := KeyIs(key, k);
    var tail := if p(x) then [x] else [];
    FilterAppend(xs, [x], p);
    FilterCons(x, [], p);
    if |xs| == 0 {
      assert xs + [x] == [x];
    } else if key(x) > key(xs[0]) {
      FilterCons(x, xs, p);
      if p(x) {
        FilterNone(xs, p);
      }
    } else {
      SortedTail(xs, key);
      InsertDescStable(x, xs[1..], key, k);
      FilterCons(xs[0], InsertDesc(x, xs[1..], key), p);
      assert xs + [x] == [xs[0]] + (xs[1..] + [x]);
      FilterCons(xs[0], xs[1..] + [x], p);
    }
  }

  /** The sort is stable: among elements with equal keys the input order is kept. */
  lemma {:induction false} SortDescStable<T(!new)>(xs: seq<T>, key: T -> int)
    ensures forall k :: Filter(SortDesc(xs, key), KeyIs(key, k)) == Filter(xs, KeyIs(key, k))
    decreases |xs|
  {
    if |xs| > 0 {
      var init, last := xs[..|xs| - 1], xs[|xs| - 1];
      assert xs == init + [last];
      SortDescStable(init, key);
      forall k
        ensures Filter(SortDesc(xs, key), KeyIs(key, k)) == Filter(xs, KeyIs(key, k))
      {
        InsertDescStable(last, SortDesc(init, key), key, k);
        FilterAppend(SortDesc(init, key), [last], KeyIs(key, k));
        FilterAppend(init, [last], KeyIs(key, k));
      }
    }
  }

  /** Two distinct positions holding the same value mean the value occurs twice. */
  lemma TwoPositions<T>(xs: seq<T>, i: int, j: int)
    requires 0 <= i < j < |xs| && xs[i] == xs[j]
    ensures multiset(xs)[xs[i]] >= 2
  {
    assert xs == xs[..j] + xs[j..];
    assert xs[i] in xs[..j];
    assert xs[j] in xs[j..];
    assert multiset(xs) == multiset(xs[..j]) + multiset(xs[j..]);
  }
}

=== FILE: wrappers.dfy ===
/** Failure-carrying datatypes shared by the whole model: `Option` for the
    values JavaScript writes as `null`/`undefined`, `Result` for operations
    whose promise can reject. */
module Wrappers {

  datatype Option<+T> = None | Some(value: T) {

    /** The value, or `default` when there is none (JavaScript's `x || default`
        on an object-valued `x`). */
    function GetOr(default: T): T {
      match this
      case Some(v) => v
      case None => default
    }
  }

  datatype Result<+R, +E> = Success(value: R) | Failure(error: E)
}
